=== FILE: README.md ===
# Tor onion crawler engine, modelled in Dafny

The repository is a small Tor crawler. Its engine comes in three variants, plus a dashboard copy of the first. Each variant fetches `.onion` pages through a SOCKS proxy, extracts a title and a text snippet, and stores a record per page.

- **Recursive crawler** (`crawler/crawler.py`, and the engine in `dashcrawlerrun.py`):
  - `fetch_url` retries up to three times. It returns only the body of a 200 response whose content type mentions `text`.
  - `parse_page` extracts a title, a snippet and the set of onion links.
  - `crawl` follows same-host links from each seed, under one `visited` set shared by all seeds and capped at five URLs. Records are appended to a JSON-lines file, with one `random_delay` after each save.
  - The dashboard copy first empties the file.
- **Seed crawler** (`crawler/crawler1.py`):
  - `fetch_url` refuses a declared Content-Length above 200 KB and cuts the body to 200 KB.
  - `parse_and_store` builds a row, and `save_page` inserts it with `INSERT OR IGNORE` into a table whose `url` column is unique.
  - `crawl` visits only the seeds. It keeps per-domain counters capped at twenty, rotates the Tor identity whenever the stored-page count is a positive multiple of fifty, and sleeps a delay after every fetch.
- **Onion-only crawler** (`crawler/crawler2.py`):
  - `fetch_url` refuses any host that does not end in `.onion`, and otherwise returns the first response that does not raise.
  - `parse_page` fills `title` and `passage` only for 200 text responses.
  - `crawl` appends one record per truthy response. As with every `requests` response, that means one whose status is not a client or server error (400 to 599).

Everything the engine cannot decide by itself is a parameter, bundled in `Services.Env`:
- the network, a function from (URL, request slot, attempt number) to a response or a raised `RequestException`;
- BeautifulSoup, as a function from body text to a `Html.Doc`;
- `urlparse(..).hostname` and `urljoin`;
- the jitter `random.uniform(-3, 3)` draws for the n-th delay of a run.

The models are therefore deterministic in their inputs. Sleeping is accounted as seconds in the result and never performed.

Module layout:
- `optional.dfy` defines `Option`.
- `pystr.dfy` defines the Python `str` operations used.
- `transport.dfy` defines responses, the retry loop and its back-off.
- `html.dfy` defines the parsed page and `soup.find`.
- `rate_gate.dfy` defines `random_delay`.
- `page_extract.dfy` defines the `parse_page` of the recursive crawler.
- `services.dfy` defines the environment.
- `recursive_crawler.dfy`, `seed_crawler.dfy` and `onion_crawler.dfy` hold the three engines.

## Model

| member | source | states |
|---|---|---|
| PyStr.ContainsIffOccurs | crawler/crawler.py:102 | `sub in s` holds exactly when `sub` occurs at some position of `s` |
| PyStr.EndsWithContains | crawler/crawler.py:102 | a string that ends with `suf` also contains it |
| PyStr.Before | crawler/crawler.py:103 | `s.split(c)[0]` is a prefix of `s` without `c`; when it is shorter than `s`, the next character is `c` |
| PyStr.BeforeFirst | crawler/crawler.py:103 | if the first `c` is at position `n`, then `s.split(c)[0]` is exactly `s[:n]` |
| PyStr.Take | crawler/crawler.py:93 | `s[:n]` is a prefix of `s` of length `min(len(s), n)` |
| PyStr.TrimStart | crawler/crawler.py:88 | `lstrip` removes a whitespace-only prefix and keeps a suffix that starts with a non-space |
| PyStr.TrimEnd | crawler/crawler.py:88 | `rstrip` removes a whitespace-only suffix and keeps a prefix that ends with a non-space |
| PyStr.Strip | crawler/crawler.py:88 | `strip()` removes whitespace at both ends and nothing else: the result is a slice of the input with only whitespace around it, and it has no whitespace at either end |
| PyStr.StripEmptyIffAllSpace | crawler/crawler.py:88 | `strip()` gives `""` exactly when every character is whitespace |
| Transport.GeometricBackoff | crawler/crawler.py:77-80 | attempts `lo..hi-1` that all raise sleep `2^hi - 2^lo` seconds in total |
| Transport.FirstReply | crawler/crawler2.py:94-106 | the retry loop makes at most three attempts and returns the first that does not raise, whatever its status; `None` only when all three raised; it sleeps `2 ** a` after each raising attempt and at no other time |
| Transport.FirstReplyBackoff | crawler/crawler2.py:94-106 | the back-off totals `2^k - 2` seconds when attempt `k` answered, and 14 seconds when all three raised |
| Html.FirstIndex | crawler/crawler2.py:120 | `soup.find(tags)` gives the first element in document order with one of the tags, and none exactly when no element has one |
| RateGate.Delay | crawler/crawler.py:49-52 | `max(0.5, 5 + jitter)` is at least half a second and at least `5 + jitter`, equals one of the two, and is at most 8 seconds when the jitter stays within plus or minus 3 |
| PageExtract.Title | crawler/crawler.py:88 | `"[No Title]"` when there is no title string or it is empty; otherwise the title stripped: a whitespace-framed slice of it with no whitespace at either end |
| PageExtract.BlankTitleIsEmpty | crawler/crawler.py:88 | a non-empty title made only of whitespace gives `""`, not the sentinel |
| PageExtract.Snippet | crawler/crawler.py:89-95 | the sentinel exactly when no `p`, `div` or `article` has more than 50 characters; otherwise the text of the first such element cut to 400, so its length is between 51 and 400 |
| PageExtract.OnionFilterIsContains | crawler/crawler.py:102 | the `endswith(".onion/")` test adds nothing to the `".onion/" in` test |
| PageExtract.Links | crawler/crawler.py:98-103 | a URL is in the link set exactly when some href, joined to the base, passes the onion filter and splits at `#` to it; no link contains `#` |
| PageExtract.ParsePage | crawler/crawler.py:85-104 | the title is the sentinel when the title string is missing or empty, and otherwise the title stripped of the whitespace at both ends; the passage is the sentinel exactly when no `p`, `div` or `article` exceeds 50 characters, and otherwise the first such element's text cut to 400, so 51 to 400 characters; a link is kept exactly when some href resolves through the onion filter to it |
| PageExtract.FilterBeforeStrip | crawler/crawler.py:101-103 | the filter is applied before the fragment is cut, so `x.net/#.onion/` is kept as `x.net/`, which lacks `.onion/` |
| RecursiveCrawler.FetchText | crawler/crawler.py:70-82 | at most three attempts; returns the body of the first 200 text response, or `None` exactly when no attempt gave one; every earlier attempt failed; back-off only after raising attempts |
| RecursiveCrawler.FetchTextAllRaise | crawler/crawler.py:71-82 | when every attempt raises, the fetch returns `None` after three attempts and 2 + 4 + 8 seconds of back-off |
| RecursiveCrawler.FetchTextNoRaiseNoSleep | crawler/crawler.py:75-80 | non-200 or non-text replies are retried at once: with no raise, nothing is slept |
| RecursiveCrawler.SavedFromLog | crawler/crawler.py:119-129 | there are no more records than fetches; every record's URL was fetched; distinct fetched URLs give records with distinct URLs |
| RecursiveCrawler.UrlsCount | crawler/crawler.py:119-121 | a fetch log has no more distinct URLs than entries, and as many only when no URL repeats |
| RecursiveCrawler.SeedOrder | crawler/crawler.py:113-118 | fetches of an earlier seed all come before those of a later seed |
| RecursiveCrawler.VisitUrl | crawler/crawler.py:118-131 | a popped URL joins `visited` whether or not its fetch succeeds, and its fetch is logged in the next slot; the store gains one record, that page's, and one delay of at least half a second exactly when a non-empty page came back, and nothing otherwise |
| RecursiveCrawler.OfferedInDomain | crawler/crawler.py:134-136 | the links a page queues share the host of the seed being crawled and are not visited yet |
| RecursiveCrawler.VisitQueued | crawler/crawler.py:115-136 | a URL fetched from the frontier of seed `i` is seed `i` itself or a same-host link of a page already fetched for seed `i`, and the frontier it leaves holds only such URLs |
| RecursiveCrawler.VisitKeeps | crawler/crawler.py:118-136 | fetching an unvisited popped URL keeps the frontier invariant: the log stays sound, `visited` matches the log, the store gains the page's record with one delay, and new same-host links are queued |
| RecursiveCrawler.SkipKeeps | crawler/crawler.py:119-120 | popping an already visited URL keeps the frontier invariant |
| RecursiveCrawler.VisitInTurn | crawler/crawler.py:113-136 | a fetch made for seed `i` while the seeds before `i` are finished keeps every fetch of the log in turn: each came only after the seeds before its own, and all their pages' same-host links, were fetched |
| RecursiveCrawler.SeedFinished | crawler/crawler.py:115-136 | once seed `i` is visited and, short of the cap, no same-host link of a page is pending, the seeds up to and including `i` are finished |
| RecursiveCrawler.CrawlSeed | crawler/crawler.py:115-136 | the frontier loop of one seed ends with the seed visited and every same-host link of its pages visited, unless the cap is reached at that point; every fetch it makes comes after the earlier seeds were finished |
| RecursiveCrawler.RunFrom | crawler/crawler.py:113-136 | the seed loop keeps the run sound, covers every seed and closes every page's same-host links unless the cap is reached; a seed's first fetch comes only after every earlier seed, and every same-host link of their pages, was fetched |
| RecursiveCrawler.Crawl | crawler/crawler.py:108-136 | at most five URLs are fetched in the whole run, each once; each log entry is `fetch_url`'s answer in its slot and stays in its seed's domain; seeds come in order; every fetched URL is its seed or a same-host link of an earlier page of the same seed; a fetch for a later seed comes only after every earlier seed and every same-host link of their pages was fetched; every seed and same-host link is visited unless the cap is reached; the file gains exactly the saved records, with one delay of at least half a second each |
| RecursiveCrawler.DashCrawl | dashcrawlerrun.py:86-116 | every fact `RecursiveCrawler.Crawl` states about the fetches holds (each is `fetch_url`'s answer in its slot, in turn, in its seed's domain, and reaching every seed and link unless the cap is hit); after the file is emptied it holds exactly this run's records, in save order, with distinct visited URLs, one delay per record, and no more records than fetches |
| SeedCrawler.FetchCapped | crawler/crawler1.py:109-138 | the first non-raising attempt ends the loop; a malformed Content-Length raises `ValueError`; a declared length above 200 KB gives `None`; otherwise the response comes back with its status and content type and a body cut to its first 200 KB |
| SeedCrawler.TooLargeStopsAtOnce | crawler/crawler1.py:123-127 | an oversized first reply ends the fetch after one attempt, with no sleep and no response |
| SeedCrawler.FetchCappedAllRaise | crawler/crawler1.py:118-138 | when every attempt raises, the result is `None` after three attempts and 14 seconds of back-off |
| SeedCrawler.RowTitle | crawler/crawler1.py:149 | `None` exactly when there is no title string or it is empty; otherwise the title stripped of surrounding whitespace |
| SeedCrawler.RowSnippet | crawler/crawler1.py:144-152 | the first `p`, `h1` or `h2` text cut to 400 characters; without one, the first 200 characters of the body; `None` exactly when there is neither |
| SeedCrawler.ParseAndStore | crawler/crawler1.py:142-153 | the row has the URL, the hostname (or `""`) and the status; title and snippet are filled only for a 200 text response; the snippet is at most 400 characters |
| SeedCrawler.SavePage | crawler/crawler1.py:85-94 | `INSERT OR IGNORE` never rewrites a row, adds at most one, leaves the URL present, and keeps URLs unique |
| SeedCrawler.SaveThenLookup | crawler/crawler1.py:88-91 | first write wins: a stored URL keeps its old row, only an unknown URL gets the new row, and other URLs are unaffected |
| SeedCrawler.Pass | crawler/crawler1.py:168-188 | a pass handles the next seed under its hostname (or `""`), whose counter is set by default; it is skipped exactly when that counter has reached twenty; a tried seed keeps the fetch result, offers a row exactly when the response is truthy, and ends the run exactly on a `ValueError`; an offered row is `parse_and_store`'s row for that seed and response, passed through `save_page`, and otherwise the table is unchanged; the domain's counter and `fetched_count` grow by one exactly when a row was offered; the identity rotates exactly when a completed pass leaves `fetched_count` a positive multiple of fifty; a tried pass that does not end the run sleeps one more delay; the seconds slept grow by the fetch's back-off, ten seconds after a rotation and the delay drawn with the next jitter |
| SeedCrawler.SkipWhenCapped | crawler/crawler1.py:171-174 | a seed whose domain count has reached twenty is skipped: no fetch, no row, no delay |
| SeedCrawler.TriedBelowCap | crawler/crawler1.py:176-188 | a seed below the cap is fetched in its own request slot; a malformed length aborts the run there; otherwise a delay of at least half a second follows, whatever the fetch gave |
| SeedCrawler.RotationRefires | crawler/crawler1.py:183-186 | a failed fetch right after the fiftieth stored page rotates the identity again at the same count |
| SeedCrawler.RuleAtEachPass | crawler/crawler1.py:168-188 | in a trace built pass by pass under the loop's rule, every pass was decided by that rule given the passes before it: skipped exactly when its domain already had twenty stored pages, a row offered exactly for a truthy response, and a rotation exactly when a completed pass leaves the stored-page count a positive multiple of fifty |
| SeedCrawler.StepKeeps | crawler/crawler1.py:168-188 | one pass of the seed loop keeps every step's domain equal to its seed's hostname (or `""`) and a `ValueError` only as the last step; it keeps the counters capped, each counting its own domain's stored pages and together summing to `fetched_count`; it keeps the table growing with unique URLs and every offered row findable, every pass decided by the loop's rule, the delays counting the tried passes that did not end the run, and the seconds slept equal to the sum of every pass's back-off, rotation pause and delay |
| SeedCrawler.Crawl | crawler/crawler1.py:158-191 | seeds are handled in order, each under its hostname (or `""`); the run stops at the first `ValueError`, and that is its last step; each tried seed gets `fetch_url`'s answer in its own slot; a seed is skipped exactly when its domain already has twenty stored pages; a tried seed offers a row exactly when its response is truthy, and its URL can then be looked up in the table; the identity rotates exactly on the fifty-page cadence; each domain's counter equals its stored pages, and `fetched_count` is their sum; the table only grows, keeps URLs unique and gains only seed URLs, at most one per counted page; one delay follows each tried seed that did not end the run, and the seconds slept are exactly the back-off, rotation pauses and delays of the passes |
| OnionCrawler.FetchOnion | crawler/crawler2.py:86-106 | a non-onion host gets `None` with no attempt and no sleep; an onion host gets the first non-raising reply, whatever its status, after every earlier attempt raised, or `None` after three raising attempts |
| OnionCrawler.FirstReplyWhateverStatus | crawler/crawler2.py:97-100 | an onion host's first reply is returned as is after one attempt, even when its status is not 200 |
| OnionCrawler.OnionAllRaise | crawler/crawler2.py:94-106 | when every attempt raises, the fetch sleeps 14 seconds and returns `None` after three attempts |
| OnionCrawler.Passage | crawler/crawler2.py:120-125 | the text of the first `p`, `div` or `span`, however short, cut to 400 characters; the sentinel when there is none |
| OnionCrawler.ParseRecord | crawler/crawler2.py:109-126 | `url` and `status` are always set; `title` and `passage` are set exactly for a 200 text response |
| OnionCrawler.ShortPassageKept | crawler/crawler2.py:120-123 | an empty first `span` gives an empty passage; there is no minimum length, unlike the recursive crawler |
| OnionCrawler.Records | crawler/crawler2.py:135-141 | every record comes from one of the seeds, with an onion host and a status outside 400 to 599; there are no more records than seeds |
| OnionCrawler.Crawl | crawler/crawler2.py:131-143 | seed `i` is fetched in slot `i`; the file gains exactly the records of the truthy responses, in seed order; one delay of at least half a second per record |
| OnionCrawler.DuplicateSeedRecordedTwice | crawler/crawler2.py:135-141 | a seed listed twice is fetched twice, and recorded twice when both responses are kept |

## Left out

- `wait_for_socks` (all variants) is not modelled. It polls the SOCKS port against the wall clock; the model starts after it has returned.
- `session_with_headers` is not modelled. It only configures proxies, the user agent and the timeout; a timeout shows up as a raising attempt of the network parameter.
- `save_to_json` is modelled as appending a record to a sequence. JSON encoding is not modelled, and neither are the write errors that `crawler/crawler2.py` swallows.
- Write errors in `save_to_json` of `crawler/crawler.py` and `dashcrawlerrun.py` are not modelled. There is no `try` around the write, so an `OSError` ends the whole run; the model treats every write as succeeding.
- `urljoin` and `urlparse` raising `ValueError` is not modelled. A malformed bracketed host such as `http://[x` makes them raise, which aborts `parse_page` and `crawl` (and the seed loop of `crawler/crawler1.py`); the model's join and hostname parameters are total functions.
- `init_db` is not modelled as such. Only the `UNIQUE` constraint of its schema is, through `SeedCrawler.SavePage`. The generated `id` and `fetched_at` columns are left out.
- `save_page` does not model database errors. Its `except` branch, which only prints, is not modelled.
- `renew_tor_identity` is modelled only as the `rotated` flag of a pass plus the ten seconds slept after it. The Tor control protocol is not modelled.
- Printing, `status_bar.text`, `resp.close()` and the commented-out host whitelist in `crawler/crawler1.py` are not modelled.
- The Streamlit dashboard is not part of this model. This covers the rest of `dashcrawlerrun.py`, plus `ui.py`, `dash.py`, `preprc.py`, `crawler/test_tor.py` and the `__main__` blocks.
- `urljoin`, `urlparse(..).hostname`, BeautifulSoup and `random.uniform` are parameters. Their own behaviour is not modelled. An element's text is taken as `get_text(strip=True)` already computed.
- Bodies are strings with one character per byte. `resp.text` decoding, Content-Encoding and errors raised by `resp.raw.read` are not modelled.
- `parse_page` returns `list(found_links)`, whose order is the set's iteration order. The model keeps the links as a set, so the order of the `links` list written to each JSON record is not modelled. The crawl itself only adds the links to its frontier set, where order plays no part.
- `set.pop()` order is not modelled. The frontier pops an arbitrary element, and every property of `RecursiveCrawler.Crawl` holds for every pop order.
- RecursiveCrawler.Crawl: the seconds slept are only bounded below (half a second per delay). The exact sum of back-off and jitter is not stated.
- SeedCrawler.Crawl: an offered row is promised to be findable by its URL, but the row found may be an older one (first write wins), so the contract does not tie it to the parsed response.
- OnionCrawler.Crawl: the seconds slept are only bounded below (half a second per record).
- `random_delay` computes in Python floats. The model uses exact reals, so float rounding of `5 + jitter` is not modelled.
- RateGate.Delay: the upper bound of 8 seconds is stated only for a jitter within plus or minus 3. The jitter is a parameter, and its range is not enforced.

=== FILE: html.dfy ===
/** The view of a parsed page that the crawlers take through BeautifulSoup:
    `soup.title.string`, every element in document order with its
    `get_text(strip=True)`, and the `href` of every `<a href=...>`. */
module Html {
  import opened Optional

  /** An element's tag name and its stripped visible text. */
  datatype Element = Element(tag: string, text: string)

  /** `title` is `soup.title.string`: `None` when there is no `<title>` or
      its `.string` is `None`. */
  datatype Doc = Doc(title: Option<string>, elements: seq<Element>, hrefs: seq<string>)

  /** `BeautifulSoup(html, "html.parser")`, supplied by the caller. */
  type Soup = string -> Doc

  /** The element is one of `tags` and its text is longer than `longer`
      characters (`longer == -1` puts no bound on the text). */
  predicate Matches(e: Element, tags: set<string>, longer: int) {
    e.tag in tags && |e.text| > longer
  }

  /** The index of the first element from position `i` on that matches. */
  function FirstIndexFrom(elems: seq<Element>, tags: set<string>, longer: int, i: nat): (r: Option<nat>)
    requires i <= |elems|
    ensures r.Some? ==> i <= r.value < |elems| && Matches(elems[r.value], tags, longer)
    ensures r.Some? ==> forall j :: i <= j < r.value ==> !Matches(elems[j], tags, longer)
    ensures r.None? ==> forall j :: i <= j < |elems| ==> !Matches(elems[j], tags, longer)
    decreases |elems| - i
  {
    if i == |elems| then None
    else if Matches(elems[i], tags, longer) then Some(i)
    else FirstIndexFrom(elems, tags, longer, i + 1)
  }

  /** The first element in document order that matches: `soup.find(tags)`
      when `longer == -1`, and the first hit of a
      `for tag in soup.find_all(tags): if len(text) > longer: break` scan
      otherwise. */
  function FirstIndex(elems: seq<Element>, tags: set<string>, longer: int): (r: Option<nat>)
    ensures r.Some? ==> r.value < |elems| && Matches(elems[r.value], tags, longer)
    ensures r.Some? ==> forall j :: 0 <= j < r.value ==> !Matches(elems[j], tags, longer)
    ensures r.None? <==> forall j :: 0 <= j < |elems| ==> !Matches(elems[j], tags, longer)
  {
    FirstIndexFrom(elems, tags, longer, 0)
  }
}

=== FILE: onion_crawler.dfy ===
/** The onion-only seed crawler of crawler/crawler2.py: a fetch that refuses
    any host not ending in ".onion" before making an attempt, a record
    extractor gated on a 200 text response, and one pass over the seeds
    with no link following and no memory of what was fetched. */
module OnionCrawler {
  import opened Optional
  import opened PyStr
  import opened Transport
  import opened Html
  import opened PageExtract
  import opened RateGate
  import opened Services

  const ONION_SUFFIX: string := ".onion"
  const PASSAGE_TAGS: set<string> := {"p", "div", "span"}

  /** The host test in front of the retry loop: `(hostname or "").endswith(".onion")`. */
  predicate OnionHost(env: Env, url: string) {
    EndsWith(HostOr(env, url), ONION_SUFFIX)
  }

  /** `fetch_url(session, url)`: a non-onion host gets `None` with no attempt
      and no sleep; an onion host gets the first response that does not
      raise, whatever its status: every attempt before the one that answered
      raised. */
  function FetchOnion(env: Env, url: string, slot: nat): (r: Fetched<Option<Response>>)
    ensures r.attempts == 0 <==> !OnionHost(env, url)
    ensures r.attempts == 0 ==> r.value.None? && r.slept == 0
    ensures r.attempts > 0 ==> r.attempts <= MAX_RETRIES
                                && AllRaised(env.net, url, slot, 1, r.attempts)
                                && r.slept == RaisedBackoff(env.net, url, slot, 1, r.attempts + 1)
    ensures r.value.Some? ==> env.net(url, slot, r.attempts) == Reply(r.value.value)
    ensures r.value.None? && r.attempts > 0 ==> AllRaised(env.net, url, slot, 1, MAX_RETRIES + 1)
  {
    if !OnionHost(env, url) then Fetched(None, 0, 0)
    else FirstReply(env.net, url, slot)
  }

  /** An onion host's first reply is returned as is: a non-200 status is
      only logged. */
  lemma FirstReplyWhateverStatus(env: Env, url: string, slot: nat)
    requires OnionHost(env, url) && env.net(url, slot, 1).Reply?
    ensures FetchOnion(env, url, slot) == Fetched(Some(env.net(url, slot, 1).resp), 1, 0)
  {
  }

  /** When every attempt raises, an onion fetch sleeps after each of the
      three, the last included: 2 + 4 + 8 seconds. */
  lemma OnionAllRaise(env: Env, url: string, slot: nat)
    requires OnionHost(env, url) && AllRaised(env.net, url, slot, 1, MAX_RETRIES + 1)
    ensures FetchOnion(env, url, slot) == Fetched(None, MAX_RETRIES, 14)
  {
    FirstReplyBackoff(env.net, url, slot);
  }

  /** The JSON record `parse_page(url, resp)` builds. */
  datatype Record = Record(url: string, status: int, title: Option<string>, passage: Option<string>)

  /** The passage of a 200 text page: the stripped text of the first `p`,
      `div` or `span`, cut to 400 characters, however short it is; the
      sentinel when there is none. */
  function Passage(doc: Doc): (s: string)
    ensures |s| <= MAX_SNIPPET
    ensures FirstIndex(doc.elements, PASSAGE_TAGS, -1).Some? ==>
      s == Take(doc.elements[FirstIndex(doc.elements, PASSAGE_TAGS, -1).value].text, MAX_SNIPPET)
    ensures (forall j :: 0 <= j < |doc.elements| ==> !Matches(doc.elements[j], PASSAGE_TAGS, -1)) ==> s == NO_TEXT
  {
    match FirstIndex(doc.elements, PASSAGE_TAGS, -1)
    case Some(i) => Take(doc.elements[i].text, MAX_SNIPPET)
    case None => NO_TEXT
  }

  /** `parse_page(url, resp)`: `url` and `status` always; `title` and
      `passage` exactly when the response is a 200 with a text content
      type. */
  function ParseRecord(env: Env, url: string, resp: Response): (rec: Record)
    ensures rec.url == url && rec.status == resp.status
    ensures rec.title.None? <==> !IsTextOk(resp)
    ensures rec.passage.None? <==> !IsTextOk(resp)
    ensures rec.title.Some? ==> rec.title.value == Title(env.soup(resp.body))
    ensures rec.passage.Some? ==> rec.passage.value == Passage(env.soup(resp.body))
  {
    if IsTextOk(resp) then
      var doc := env.soup(resp.body);
      Record(url, resp.status, Some(Title(doc)), Some(Passage(doc)))
    else Record(url, resp.status, None, None)
  }

  /** A short passage element is enough here: unlike the recursive crawler,
      which wants more than fifty characters, the first `p`, `div` or `span`
      wins even with empty text. */
  lemma ShortPassageKept(doc: Doc)
    requires doc.elements != [] && doc.elements[0].tag == "span" && doc.elements[0].text == []
    ensures Passage(doc) == []
  {
  }

  /** `if not resp: continue`: a response came back and it is truthy. */
  predicate Stores(r: Fetched<Option<Response>>) {
    r.value.Some? && Truthy(r.value.value)
  }

  /** The records the first `n` seeds append, seed `i` fetched in request
      slot `i`. */
  function Records(env: Env, seeds: seq<string>, n: nat): (rs: seq<Record>)
    requires n <= |seeds|
    ensures |rs| <= n
    ensures forall k :: 0 <= k < |rs| ==>
      rs[k].url in seeds[..n] && OnionHost(env, rs[k].url) && !(400 <= rs[k].status < 600)
  {
    if n == 0 then []
    else
      var rest := Records(env, seeds, n - 1);
      var r := FetchOnion(env, seeds[n - 1], n - 1);
      assert forall k :: 0 <= k < |rest| ==> rest[k].url in seeds[..n] by {
        assert seeds[..n - 1] <= seeds[..n];
      }
      if Stores(r) then rest + [ParseRecord(env, seeds[n - 1], r.value.value)] else rest
  }

  /** Result `j` is what `fetch_url` gives seed `j` in request slot `j`. */
  ghost predicate ResultsFaithful(env: Env, seeds: seq<string>, results: seq<Fetched<Option<Response>>>) {
    && |results| <= |seeds|
    && forall j :: 0 <= j < |results| ==> results[j] == FetchOnion(env, seeds[j], j)
  }

  /** Appending the fetch of the next seed keeps the results faithful. */
  lemma ResultsAppend(env: Env, seeds: seq<string>, results: seq<Fetched<Option<Response>>>, r: Fetched<Option<Response>>)
    requires |results| < |seeds| && ResultsFaithful(env, seeds, results)
    requires r == FetchOnion(env, seeds[|results|], |results|)
    ensures ResultsFaithful(env, seeds, results + [r])
  {
    assert forall j :: 0 <= j < |results| ==> (results + [r])[j] == results[j];
  }

  /** The crawl's effect: the JSON lines written, one fetch result per seed,
      the number of delays and the seconds slept. */
  datatype Outcome = Outcome(store: seq<Record>, results: seq<Fetched<Option<Response>>>, delays: nat, slept: real)

  /** `crawl(seed_urls)` of crawler/crawler2.py, appending to a file that
      held `prior`. Seeds are fetched in order, each in its own request slot
      and duplicates again; every truthy response appends one record and
      one delay; nothing else is fetched. */
  method Crawl(seeds: seq<string>, prior: seq<Record>, env: Env) returns (o: Outcome)
    ensures |o.results| == |seeds|
    ensures forall i :: 0 <= i < |seeds| ==> o.results[i] == FetchOnion(env, seeds[i], i)
    ensures o.store == prior + Records(env, seeds, |seeds|)
    ensures o.delays == |o.store| - |prior|
    ensures o.slept >= MIN_DELAY * o.delays as real
  {
    o := Outcome(prior, [], 0, 0.0);
    var i := 0;
    while i < |seeds|
      invariant i <= |seeds| && |o.results| == i
      invariant ResultsFaithful(env, seeds, o.results)
      invariant o.store == prior + Records(env, seeds, i)
      invariant o.delays == |o.store| - |prior|
      invariant o.slept >= MIN_DELAY * o.delays as real
    {
      var r := FetchOnion(env, seeds[i], i);
      ResultsAppend(env, seeds, o.results, r);
      var results := o.results + [r];
      var slept := o.slept + r.slept as real;
      if Stores(r) {
        var rec := ParseRecord(env, seeds[i], r.value.value);
        o := Outcome(o.store + [rec], results, o.delays + 1, slept + Delay(env.jitter(o.delays)));
      } else {
        o := o.(results := results, slept := slept);
      }
      i := i + 1;
    }
  }

  /** A seed listed twice is fetched twice and, when both fetches keep a
      response, recorded twice. */
  lemma DuplicateSeedRecordedTwice(env: Env, url: string)
    requires Stores(FetchOnion(env, url, 0)) && Stores(FetchOnion(env, url, 1))
    ensures var rs := Records(env, [url, url], 2);
      |rs| == 2 && rs[0].url == url && rs[1].url == url
  {
    assert Records(env, [url, url], 1) == [ParseRecord(env, url, FetchOnion(env, url, 0).value.value)];
  }
}

=== FILE: optional.dfy ===
/** Python's `None`-or-value, as the crawlers use it for optional fields and
    for the results of `fetch_url`. */
module Optional {

  datatype Option<+T> = None | Some(value: T) {

    /** Python's `x or default` for a value that is falsy only when absent. */
    function GetOr(default: T): T {
      match this
      case Some(v) => v
      case None => default
    }
  }
}

=== FILE: page_extract.dfy ===
/** `parse_page(base_url, html)` of crawler/crawler.py (and its copy in
    dashcrawlerrun.py): a title, a snippet and the set of onion links of a
    page. */
module PageExtract {
  import opened Optional
  import opened PyStr
  import opened Html

  const NO_TITLE: string := "[No Title]"
  const NO_TEXT: string := "[No visible text found]"
  const SNIPPET_TAGS: set<string> := {"p", "div", "article"}
  /** A snippet candidate needs more than this many characters... */
  const MIN_SNIPPET: nat := 50
  /** ...and is cut to this many. */
  const MAX_SNIPPET: nat := 400
  const ONION_MARK: string := ".onion/"

  /** `urljoin(base, href)`, supplied by the caller. */
  type Join = (string, string) -> string

  /** The fields `parse_page` returns: `title`, `passage` and `links`. */
  datatype Page = Page(title: string, passage: string, links: set<string>)

  /** `soup.title.string.strip() if soup.title and soup.title.string else "[No Title]"`. */
  function Title(doc: Doc): (t: string)
    ensures doc.title.None? || doc.title.value == [] ==> t == NO_TITLE
    ensures doc.title.Some? && doc.title.value != [] ==> SpaceFramed(t, doc.title.value)
    ensures t == [] || (!IsSpace(t[0]) && !IsSpace(t[|t| - 1]))
  {
    if doc.title.Some? && doc.title.value != [] then
      Strip(doc.title.value)
    else NO_TITLE
  }

  /** A title made only of whitespace is truthy, so it is stripped to the
      empty string rather than replaced by the sentinel. */
  lemma BlankTitleIsEmpty(doc: Doc)
    requires doc.title.Some? && doc.title.value != []
    requires forall k :: 0 <= k < |doc.title.value| ==> IsSpace(doc.title.value[k])
    ensures Title(doc) == []
  {
    StripEmptyIffAllSpace(doc.title.value);
  }

  /** The element the snippet loop breaks on: the first `p`, `div` or
      `article` whose stripped text is longer than 50 characters. */
  function SnippetSource(doc: Doc): (r: Option<nat>)
    ensures r.Some? ==> r.value < |doc.elements| && Matches(doc.elements[r.value], SNIPPET_TAGS, MIN_SNIPPET)
  {
    FirstIndex(doc.elements, SNIPPET_TAGS, MIN_SNIPPET)
  }

  /** `text_block or "[No visible text found]"`. */
  function Snippet(doc: Doc): (s: string)
    ensures s == NO_TEXT || MIN_SNIPPET < |s| <= MAX_SNIPPET
    ensures s == NO_TEXT <==>
      forall j :: 0 <= j < |doc.elements| ==> !Matches(doc.elements[j], SNIPPET_TAGS, MIN_SNIPPET)
    ensures s != NO_TEXT ==> exists i :: (0 <= i < |doc.elements| && s == Take(doc.elements[i].text, MAX_SNIPPET)
      && Matches(doc.elements[i], SNIPPET_TAGS, MIN_SNIPPET)
      && forall j :: 0 <= j < i ==> !Matches(doc.elements[j], SNIPPET_TAGS, MIN_SNIPPET))
  {
    match SnippetSource(doc)
    case Some(i) => Take(doc.elements[i].text, MAX_SNIPPET)
    case None => NO_TEXT
  }

  /** `abs_url.endswith(".onion/") or ".onion/" in abs_url`. */
  predicate IsOnionLink(abs: string) {
    EndsWith(abs, ONION_MARK) || Contains(abs, ONION_MARK)
  }

  /** The `endswith` half of the filter adds nothing to the `in` half. */
  lemma OnionFilterIsContains(abs: string)
    ensures IsOnionLink(abs) <==> Contains(abs, ONION_MARK)
  {
    if EndsWith(abs, ONION_MARK) {
      EndsWithContains(abs, ONION_MARK);
    }
  }

  /** `urljoin(base, href).split("#")[0]` for an anchor whose resolved URL
      passes the onion filter. */
  ghost predicate LinkFrom(join: Join, base: string, href: string, l: string) {
    IsOnionLink(join(base, href)) && l == Before(join(base, href), '#')
  }

  /** The `found_links` set built from the anchors' hrefs. */
  function Links(join: Join, base: string, hrefs: seq<string>): (r: set<string>)
    ensures forall l :: l in r <==> exists i :: 0 <= i < |hrefs| && LinkFrom(join, base, hrefs[i], l)
    ensures forall l :: l in r ==> '#' !in l
  {
    if hrefs == [] then {}
    else
      var abs := join(base, hrefs[|hrefs| - 1]);
      var rest := Links(join, base, hrefs[..|hrefs| - 1]);
      assert forall i :: 0 <= i < |hrefs| - 1 ==> hrefs[..|hrefs| - 1][i] == hrefs[i];
      if IsOnionLink(abs) then rest + {Before(abs, '#')} else rest
  }

  /** `parse_page(base_url, html)` on the parsed document: the sentinel
      title when the page has no title text and otherwise that text with its
      ends stripped, a snippet that is the sentinel exactly when no candidate
      element is long enough and otherwise the first such element's text cut
      to 400 characters, and the links the onion filter lets through, fragment removed. */
  function ParsePage(join: Join, base: string, doc: Doc): (p: Page)
    ensures doc.title.None? || doc.title.value == [] ==> p.title == NO_TITLE
    ensures doc.title.Some? && doc.title.value != [] ==> SpaceFramed(p.title, doc.title.value)
    ensures p.title == [] || (!IsSpace(p.title[0]) && !IsSpace(p.title[|p.title| - 1]))
    ensures p.passage == NO_TEXT <==>
      forall j :: 0 <= j < |doc.elements| ==> !Matches(doc.elements[j], SNIPPET_TAGS, MIN_SNIPPET)
    ensures p.passage == NO_TEXT || MIN_SNIPPET < |p.passage| <= MAX_SNIPPET
    ensures p.passage != NO_TEXT ==> exists i :: (0 <= i < |doc.elements| && p.passage == Take(doc.elements[i].text, MAX_SNIPPET)
      && Matches(doc.elements[i], SNIPPET_TAGS, MIN_SNIPPET)
      && forall j :: 0 <= j < i ==> !Matches(doc.elements[j], SNIPPET_TAGS, MIN_SNIPPET))
    ensures forall l :: l in p.links <==> exists i :: 0 <= i < |doc.hrefs| && LinkFrom(join, base, doc.hrefs[i], l)
  {
    Page(Title(doc), Snippet(doc), Links(join, base, doc.hrefs))
  }

  /** `x.net/#.onion/` passes the onion filter on its fragment. */
  lemma FragmentPasses()
    ensures IsOnionLink("x.net/#.onion/")
  {
    var abs := "x.net/#.onion/";
    assert abs[7..] == ONION_MARK;
    OccursAt(abs, ONION_MARK, 7);
  }

  /** `"x.net/#.onion/".split("#")[0]` is `x.net/`. */
  lemma FragmentCut()
    ensures Before("x.net/#.onion/", '#') == "x.net/"
  {
    var abs := "x.net/#.onion/";
    assert abs[..6] == "x.net/" && abs[6] == '#' && '#' !in abs[..6];
    BeforeFirst(abs, '#', 6);
  }

  /** The filter runs before the fragment is cut, so a kept link need not
      contain ".onion/" itself: `x.net/#.onion/` passes and is kept as
      `x.net/`. */
  lemma FilterBeforeStrip(join: Join, base: string)
    requires join(base, "x") == "x.net/#.onion/"
    ensures "x.net/" in Links(join, base, ["x"])
    ensures !Contains("x.net/", ONION_MARK)
  {
    FragmentPasses();
    FragmentCut();
    assert LinkFrom(join, base, ["x"][0], "x.net/");
    ShorterLacks("x.net/", ONION_MARK);
  }
}

=== FILE: pystr.dfy ===
/** The Python `str` operations the crawlers rely on: `sub in s`,
    `s.endswith(suf)`, `s.split(c)[0]`, `s[:n]` and `s.strip()`. */
module PyStr {

  /** `str.isspace()` for one character: the characters CPython's
      `str.strip()` removes when called without arguments. */
  predicate IsSpace(c: char) {
    || ('\t' <= c <= '\r')
    || ('\U{1c}' <= c <= ' ')
    || c == '\U{85}' || c == '\U{a0}' || c == '\U{1680}'
    || ('\U{2000}' <= c <= '\U{200a}')
    || c == '\U{2028}' || c == '\U{2029}' || c == '\U{202f}'
    || c == '\U{205f}' || c == '\U{3000}'
  }

  /** `sub in s`. */
  predicate Contains(s: string, sub: string)
    decreases |s|
  {
    sub <= s || (|s| > 0 && Contains(s[1..], sub))
  }

  /** `sub in s` holds exactly when `sub` starts at some position of `s`. */
  lemma {:induction false} ContainsIffOccurs(s: string, sub: string)
    ensures Contains(s, sub) <==> exists i :: 0 <= i <= |s| && sub <= s[i..]
    decreases |s|
  {
    if sub <= s {
      assert sub <= s[0..];
    } else if |s| > 0 {
      ContainsIffOccurs(s[1..], sub);
      if Contains(s[1..], sub) {
        var i :| 0 <= i <= |s[1..]| && sub <= s[1..][i..];
        assert s[1..][i..] == s[i + 1..];
      }
      if exists i :: 0 <= i <= |s| && sub <= s[i..] {
        var i :| 0 <= i <= |s| && sub <= s[i..];
        assert i != 0;
        assert s[1..][i - 1..] == s[i..];
      }
    } else {
      assert forall i :: 0 <= i <= |s| ==> s[i..] == [];
    }
  }

  /** An occurrence of `sub` at position `i` makes `sub in s` true. */
  lemma OccursAt(s: string, sub: string, i: nat)
    requires i <= |s| && sub <= s[i..]
    ensures Contains(s, sub)
  {
    ContainsIffOccurs(s, sub);
  }

  /** `s.endswith(suf)`. */
  predicate EndsWith(s: string, suf: string) {
    |suf| <= |s| && s[|s| - |suf|..] == suf
  }

  /** A string that ends with `suf` contains it. */
  lemma EndsWithContains(s: string, suf: string)
    requires EndsWith(s, suf)
    ensures Contains(s, suf)
  {
    ContainsIffOccurs(s, suf);
    assert suf <= s[|s| - |suf|..];
  }

  /** `s.split(c)[0]`: the part of `s` before the first `c`, or all of `s`
      when there is none. */
  function Before(s: string, c: char): (r: string)
    ensures r <= s
    ensures c !in r
    ensures |r| < |s| ==> s[|r|] == c
  {
    if s == [] || s[0] == c then [] else [s[0]] + Before(s[1..], c)
  }

  /** Splitting at the first `c`, found at position `n`, keeps `s[:n]`. */
  lemma {:induction false} BeforeFirst(s: string, c: char, n: nat)
    requires n < |s| && s[n] == c && c !in s[..n]
    ensures Before(s, c) == s[..n]
  {
    if n > 0 {
      assert s[0] == s[..n][0];
      assert s[1..][..n - 1] == s[1..n];
      BeforeFirst(s[1..], c, n - 1);
      assert s[..n] == [s[0]] + s[1..n];
    }
  }

  /** A string shorter than `sub` does not contain it. */
  lemma ShorterLacks(s: string, sub: string)
    requires |s| < |sub|
    ensures !Contains(s, sub)
  {
    ContainsIffOccurs(s, sub);
  }

  /** `s[:n]` for a non-negative `n`. */
  function Take(s: string, n: nat): (r: string)
    ensures r <= s
    ensures |r| == if |s| <= n then |s| else n
  {
    if |s| <= n then s else s[..n]
  }

  /** `s.lstrip()`. */
  function TrimStart(s: string): (r: string)
    ensures |r| <= |s| && r == s[|s| - |r|..]
    ensures r == [] || !IsSpace(r[0])
    ensures forall k :: 0 <= k < |s| - |r| ==> IsSpace(s[k])
  {
    if s != [] && IsSpace(s[0]) then TrimStart(s[1..]) else s
  }

  /** `s.rstrip()`. */
  function TrimEnd(s: string): (r: string)
    ensures r <= s
    ensures r == [] || !IsSpace(r[|r| - 1])
    ensures forall k :: |r| <= k < |s| ==> IsSpace(s[k])
  {
    if s != [] && IsSpace(s[|s| - 1]) then TrimEnd(s[..|s| - 1]) else s
  }

  /** `r` sits at position `i` of `s` and everything around it is whitespace. */
  ghost predicate FramedAt(r: string, s: string, i: int) {
    && 0 <= i <= |s| - |r|
    && r == s[i..i + |r|]
    && (forall k :: 0 <= k < i ==> IsSpace(s[k]))
    && (forall k :: i + |r| <= k < |s| ==> IsSpace(s[k]))
  }

  /** `r` is `s` with some whitespace removed from each end. */
  ghost predicate SpaceFramed(r: string, s: string) {
    exists i :: FramedAt(r, s, i)
  }

  /** Trimming whitespace off the end of the whitespace-framed suffix `t`
      (starting at `i`) of `s` leaves a string framed in `s` at `i`. */
  lemma EndTrimmedFramed(s: string, i: nat, t: string, r: string)
    requires i <= |s| && t == s[i..]
    requires forall k :: 0 <= k < i ==> IsSpace(s[k])
    requires r <= t && forall k :: |r| <= k < |t| ==> IsSpace(t[k])
    ensures FramedAt(r, s, i)
  {
    assert r == s[i..i + |r|];
    forall k | i + |r| <= k < |s|
      ensures IsSpace(s[k])
    {
      assert s[k] == t[k - i];
    }
  }

  /** Trimming both ends leaves a slice of `s` framed by whitespace. */
  lemma TrimsFramed(s: string)
    ensures SpaceFramed(TrimEnd(TrimStart(s)), s)
  {
    var t := TrimStart(s);
    EndTrimmedFramed(s, |s| - |t|, t, TrimEnd(t));
  }

  /** `s.strip()`: whitespace is removed from both ends and nothing else
      is, so the result is a slice of `s` framed by whitespace only, with no
      whitespace left at either end. */
  function Strip(s: string): (r: string)
    ensures SpaceFramed(r, s)
    ensures r == [] || (!IsSpace(r[0]) && !IsSpace(r[|r| - 1]))
  {
    TrimsFramed(s);
    TrimEnd(TrimStart(s))
  }

  /** A whitespace-only (or empty) string strips to the empty string, and no
      other string does. */
  lemma StripEmptyIffAllSpace(s: string)
    ensures Strip(s) == [] <==> forall k :: 0 <= k < |s| ==> IsSpace(s[k])
  {
    var i :| FramedAt(Strip(s), s, i);
    if Strip(s) != [] {
      assert !IsSpace(s[i]);
    }
  }
}

=== FILE: rate_gate.dfy ===
/** `random_delay()`, identical in all crawler variants: five seconds plus a
    jitter drawn from `random.uniform(-3, 3)`, never less than half a second.
    The jitter is an input; the sleep itself is accounted by the callers. */
module RateGate {

  const RATE_LIMIT_SECONDS: real := 5.0
  const JITTER_SECONDS: real := 3.0
  const MIN_DELAY: real := 0.5

  /** `max(0.5, RATE_LIMIT_SECONDS + jitter)`. */
  function Delay(jitter: real): (d: real)
    ensures d >= MIN_DELAY && d >= RATE_LIMIT_SECONDS + jitter
    ensures d == MIN_DELAY || d == RATE_LIMIT_SECONDS + jitter
    ensures -JITTER_SECONDS <= jitter <= JITTER_SECONDS ==> d <= RATE_LIMIT_SECONDS + JITTER_SECONDS
  {
    if RATE_LIMIT_SECONDS + jitter > MIN_DELAY then RATE_LIMIT_SECONDS + jitter else MIN_DELAY
  }

}

=== FILE: recursive_crawler.dfy ===
/** The recursive crawler of crawler/crawler.py, whose engine
    dashcrawlerrun.py repeats line for line: a retry loop that only accepts
    a 200 text response, and a frontier loop that follows same-host links
    under one `visited` set shared by every seed of the run. */
module RecursiveCrawler {
  import opened Optional
  import opened PyStr
  import opened Transport
  import opened Html
  import opened PageExtract
  import opened RateGate
  import opened Services

  /** Named per domain in the source, but it bounds the run's single
      `visited` set. */
  const MAX_PAGES_PER_DOMAIN: nat := 5

  /** Attempt `a` answered with status 200 and a text content type. */
  predicate GoodAt(net: Network, url: string, slot: nat, a: nat) {
    net(url, slot, a).Reply? && IsTextOk(net(url, slot, a).resp)
  }

  /** The `fetch_url` loop from attempt `a` on. */
  function FetchTextFrom(net: Network, url: string, slot: nat, a: nat): (r: Fetched<Option<string>>)
    requires 1 <= a <= MAX_RETRIES + 1
    ensures a <= MAX_RETRIES ==> a <= r.attempts <= MAX_RETRIES
    ensures a > MAX_RETRIES ==> r.attempts == MAX_RETRIES && r.value.None?
    ensures forall b :: a <= b < r.attempts ==> !GoodAt(net, url, slot, b)
    ensures r.value.Some? ==> GoodAt(net, url, slot, r.attempts)
                              && r.value.value == net(url, slot, r.attempts).resp.body
    ensures r.value.None? <==> forall b :: a <= b <= MAX_RETRIES ==> !GoodAt(net, url, slot, b)
    ensures r.value.None? ==> r.attempts == MAX_RETRIES
    ensures r.slept == RaisedBackoff(net, url, slot, a, r.attempts + 1)
    decreases MAX_RETRIES + 1 - a
  {
    if a > MAX_RETRIES then Fetched(None, MAX_RETRIES, 0)
    else match net(url, slot, a)
      case Reply(resp) =>
        if IsTextOk(resp) then assert GoodAt(net, url, slot, a); Fetched(Some(resp.body), a, 0)
        else FetchTextFrom(net, url, slot, a + 1)
      case Raise =>
        var rest := FetchTextFrom(net, url, slot, a + 1);
        Fetched(rest.value, rest.attempts, Pow2(a) + rest.slept)
  }

  /** `fetch_url(session, url)`: at most `MAX_RETRIES` attempts; the body of
      the first 200 text response, or `None` when no attempt gave one; a
      `2 ** a` back-off after each attempt that raised and after no other. */
  function FetchText(net: Network, url: string, slot: nat): (r: Fetched<Option<string>>)
    ensures 1 <= r.attempts <= MAX_RETRIES
    ensures forall b :: 1 <= b < r.attempts ==> !GoodAt(net, url, slot, b)
    ensures r.value.Some? ==> GoodAt(net, url, slot, r.attempts)
                              && r.value.value == net(url, slot, r.attempts).resp.body
    ensures r.value.None? <==> forall b :: 1 <= b <= MAX_RETRIES ==> !GoodAt(net, url, slot, b)
    ensures r.value.None? ==> r.attempts == MAX_RETRIES
    ensures r.slept == RaisedBackoff(net, url, slot, 1, r.attempts + 1)
  {
    FetchTextFrom(net, url, slot, 1)
  }

  /** When every attempt raises, `fetch_url` gives up after three attempts
      having slept 2 + 4 + 8 seconds. */
  lemma FetchTextAllRaise(net: Network, url: string, slot: nat)
    requires AllRaised(net, url, slot, 1, MAX_RETRIES + 1)
    ensures FetchText(net, url, slot) == Fetched(None, MAX_RETRIES, 14)
  {
    GeometricBackoff(net, url, slot, 1, MAX_RETRIES + 1);
  }

  /** A non-200 or non-text response is re-requested at once: when no
      attempt raises, nothing is slept whatever the statuses. */
  lemma FetchTextNoRaiseNoSleep(net: Network, url: string, slot: nat)
    requires forall a :: 1 <= a <= MAX_RETRIES ==> net(url, slot, a).Reply?
    ensures FetchText(net, url, slot).slept == 0
  {
    NoRaiseNoBackoff(net, url, slot, 1, FetchText(net, url, slot).attempts + 1);
  }

  /** One call of `fetch_url` in a run: the URL, the position of the seed
      being crawled, and what the call returned. */
  datatype Visit = Visit(url: string, seed: nat, html: Option<string>)

  /** A saved JSON record: `parse_page`'s fields plus `url`. */
  datatype PageRecord = PageRecord(url: string, title: string, passage: string, links: set<string>)

  /** The frontier loop's view of its collaborators: `fetch(url, slot)` is
      `fetch_url` in request slot `slot`, `extract(url, html)` is
      `parse_page`, then `urlparse(..).hostname` and the jitter of the n-th
      delay. */
  datatype Engine = Engine(fetch: (string, nat) -> Fetched<Option<string>>, extract: (string, string) -> Page,
                           hostname: string -> Option<string>, jitter: nat -> real)

  /** `if not html: continue` lets only a non-empty body through. */
  predicate Saves(v: Visit) {
    v.html.Some? && v.html.value != []
  }

  function RecordOf(v: Visit, extract: (string, string) -> Page): (rec: PageRecord)
    requires Saves(v)
    ensures rec.url == v.url
  {
    var p := extract(v.url, v.html.value);
    PageRecord(v.url, p.title, p.passage, p.links)
  }

  /** The links a visit offers to the frontier. */
  function LinksOf(v: Visit, extract: (string, string) -> Page): set<string> {
    if Saves(v) then extract(v.url, v.html.value).links else {}
  }

  /** The links of visit `v` on its seed's host: the ones the crawl queues. */
  function HostLinks(seeds: seq<string>, eng: Engine, v: Visit): set<string> {
    if v.seed < |seeds| then
      set l | l in LinksOf(v, eng.extract) && eng.hostname(l) == eng.hostname(seeds[v.seed])
    else {}
  }

  /** The records a fetch log appends, in fetch order. */
  function Saved(log: seq<Visit>, extract: (string, string) -> Page): seq<PageRecord> {
    if log == [] then []
    else
      var last := log[|log| - 1];
      Saved(log[..|log| - 1], extract) + (if Saves(last) then [RecordOf(last, extract)] else [])
  }

  function Urls(log: seq<Visit>): set<string> {
    set k | 0 <= k < |log| :: log[k].url
  }

  ghost predicate DistinctUrls(log: seq<Visit>) {
    forall j, k :: 0 <= j < k < |log| ==> log[j].url != log[k].url
  }

  /** `url` is the seed itself or shares its host. */
  predicate InDomain(hostname: string -> Option<string>, url: string, seed: string) {
    url == seed || hostname(url) == hostname(seed)
  }

  /** Every saved record comes from a distinct fetched URL. */
  lemma {:induction false} SavedFromLog(log: seq<Visit>, extract: (string, string) -> Page)
    ensures |Saved(log, extract)| <= |log|
    ensures forall j :: 0 <= j < |Saved(log, extract)| ==> Saved(log, extract)[j].url in Urls(log)
    ensures DistinctUrls(log) ==>
      forall i, j :: 0 <= i < j < |Saved(log, extract)| ==> Saved(log, extract)[i].url != Saved(log, extract)[j].url
  {
    if log != [] {
      var init := log[..|log| - 1];
      SavedFromLog(init, extract);
      assert Urls(log) == Urls(init) + {log[|log| - 1].url} by {
        assert forall k :: 0 <= k < |init| ==> init[k] == log[k];
      }
      if DistinctUrls(log) {
        assert DistinctUrls(init) by {
          assert forall k :: 0 <= k < |init| ==> init[k] == log[k];
        }
        assert log[|log| - 1].url !in Urls(init);
      }
    }
  }

  /** Appending one visit to the log appends its URL and, if it saves, its
      record. */
  lemma VisitAppended(log: seq<Visit>, v: Visit, extract: (string, string) -> Page)
    ensures Urls(log + [v]) == Urls(log) + {v.url}
    ensures Saved(log + [v], extract) == Saved(log, extract) + (if Saves(v) then [RecordOf(v, extract)] else [])
  {
    assert (log + [v])[..|log|] == log;
    forall u | u in Urls(log)
      ensures u in Urls(log + [v])
    {
      var k :| 0 <= k < |log| && log[k].url == u;
      assert (log + [v])[k] == log[k];
    }
    assert (log + [v])[|log|] == v;
  }

  /** `|Urls(log)| <= |log|`, with equality exactly when no URL repeats. */
  lemma {:induction false} UrlsCount(log: seq<Visit>)
    ensures |Urls(log)| <= |log|
    ensures |Urls(log)| == |log| ==> DistinctUrls(log)
  {
    if log != [] {
      var init := log[..|log| - 1];
      var last := log[|log| - 1];
      VisitAppended(init, last, (u: string, h: string) => Page([], [], {}));
      assert init + [last] == log;
      UrlsCount(init);
      if |Urls(log)| == |log| {
        assert last.url !in Urls(init);
        forall j, k | 0 <= j < k < |log|
          ensures log[j].url != log[k].url
        {
          if k < |log| - 1 {
            assert log[j] == init[j] && log[k] == init[k];
          } else {
            assert log[j].url == init[j].url;
          }
        }
      }
    }
  }

  /** Seed positions never decrease along the log. */
  ghost predicate SeedOrdered(log: seq<Visit>) {
    |log| <= 1 || (SeedOrdered(log[..|log| - 1]) && log[|log| - 2].seed <= log[|log| - 1].seed)
  }

  /** Appending a visit whose seed is no smaller than any before keeps the
      log in seed order. */
  lemma AppendOrdered(log: seq<Visit>, v: Visit)
    requires SeedOrdered(log)
    requires log != [] ==> log[|log| - 1].seed <= v.seed
    ensures SeedOrdered(log + [v])
  {
    var w := log + [v];
    assert w[..|w| - 1] == log;
    if log != [] {
      assert w[|w| - 2] == log[|log| - 1] && w[|w| - 1] == v;
    }
  }

  /** A log in seed order, read pairwise. */
  lemma {:induction false} SeedOrder(log: seq<Visit>)
    requires SeedOrdered(log)
    ensures forall j, k :: 0 <= j < k < |log| ==> log[j].seed <= log[k].seed
  {
    if |log| > 1 {
      var init := log[..|log| - 1];
      SeedOrder(init);
      forall j, k | 0 <= j < k < |log|
        ensures log[j].seed <= log[k].seed
      {
        if k < |log| - 1 {
          assert log[j] == init[j] && log[k] == init[k];
        } else if j < |log| - 2 {
          assert log[j] == init[j] && log[|log| - 2] == init[|log| - 2];
        }
      }
    }
  }

  /** The state of a run: the data file's records, `visited`, every
      `fetch_url` call in order, the number of delays and the time slept. */
  datatype Run = Run(store: seq<PageRecord>, visited: set<string>, log: seq<Visit>, delays: nat, slept: real)

  /** Every logged fetch is the engine's answer for its URL and slot, stays
      in the domain of a seed below `bound`, and seeds come in order. */
  ghost predicate LogSound(seeds: seq<string>, eng: Engine, bound: nat, log: seq<Visit>)
    requires bound <= |seeds|
  {
    && (forall k :: 0 <= k < |log| ==> log[k].html == eng.fetch(log[k].url, k).value)
    && (forall k :: 0 <= k < |log| ==>
          log[k].seed < bound && InDomain(eng.hostname, log[k].url, seeds[log[k].seed]))
    && SeedOrdered(log)
  }

  /** `visited` holds exactly the logged URLs, each logged once, at most five. */
  ghost predicate VisitedSound(run: Run) {
    && |run.visited| <= MAX_PAGES_PER_DOMAIN
    && run.visited == Urls(run.log) && |run.visited| == |run.log|
  }

  /** The data file holds what it held before plus the saved records, and
      one delay was slept per saved record. */
  ghost predicate StoreSound(prior: seq<PageRecord>, eng: Engine, run: Run) {
    && run.store == prior + Saved(run.log, eng.extract)
    && run.delays == |Saved(run.log, eng.extract)|
    && run.slept >= MIN_DELAY * run.delays as real
  }

  /** What holds of a run while seeds below `bound` have been worked on. */
  ghost predicate Sound(seeds: seq<string>, prior: seq<PageRecord>, eng: Engine, bound: nat, run: Run) {
    && bound <= |seeds|
    && LogSound(seeds, eng, bound, run.log)
    && VisitedSound(run)
    && StoreSound(prior, eng, run)
  }

  ghost predicate Full(run: Run) {
    |run.visited| == MAX_PAGES_PER_DOMAIN
  }

  /** The seeds before `i` were visited, unless the cap was reached. */
  ghost predicate SeedsCovered(seeds: seq<string>, run: Run, i: nat) {
    i <= |seeds| && forall j :: 0 <= j < i ==> seeds[j] in run.visited || Full(run)
  }

  /** Every same-host link of a saved page is visited, or the cap was
      reached, or (for the seed `cur` being crawled) it is still pending. */
  ghost predicate LinksClosed(seeds: seq<string>, eng: Engine, run: Run, pending: set<string>, cur: nat) {
    forall k, l :: 0 <= k < |run.log| && l in HostLinks(seeds, eng, run.log[k])
      ==> l in run.visited || Full(run) || (run.log[k].seed == cur && l in pending)
  }

  /** `u` is seed `i` itself or a same-host link of a page fetched for seed
      `i` in `log`: the only URLs the frontier of seed `i` ever holds. */
  ghost predicate QueuedFor(seeds: seq<string>, eng: Engine, log: seq<Visit>, i: nat, u: string) {
    && i < |seeds|
    && (u == seeds[i] || exists j :: 0 <= j < |log| && log[j].seed == i && u in HostLinks(seeds, eng, log[j]))
  }

  /** Every fetch is of its seed or of a link queued from an earlier page of
      the same seed. */
  ghost predicate LogQueued(seeds: seq<string>, eng: Engine, log: seq<Visit>) {
    forall k :: 0 <= k < |log| ==> QueuedFor(seeds, eng, log[..k], log[k].seed, log[k].url)
  }

  /** A URL queued for a seed stays queued as the log grows. */
  lemma QueuedGrows(seeds: seq<string>, eng: Engine, log: seq<Visit>, v: Visit, i: nat, u: string)
    requires QueuedFor(seeds, eng, log, i, u)
    ensures QueuedFor(seeds, eng, log + [v], i, u)
  {
    if u != seeds[i] {
      var j :| 0 <= j < |log| && log[j].seed == i && u in HostLinks(seeds, eng, log[j]);
      assert (log + [v])[j] == log[j];
    }
  }

  /** Visiting a URL of the frontier of seed `i` logs a queued URL, and the
      frontier it leaves holds only URLs queued for seed `i`. */
  lemma VisitQueued(seeds: seq<string>, eng: Engine, i: nat, run: Run, toVisit: set<string>, url: string)
    requires i < |seeds| && url in toVisit
    requires LogQueued(seeds, eng, run.log)
    requires forall u :: u in toVisit ==> QueuedFor(seeds, eng, run.log, i, u)
    ensures var run' := VisitUrl(eng, i, run, url);
      && LogQueued(seeds, eng, run'.log)
      && forall u :: u in toVisit - {url} + Offered(seeds, eng, run') ==> QueuedFor(seeds, eng, run'.log, i, u)
  {
    var run' := VisitUrl(eng, i, run, url);
    var n := |run.log|;
    var v := run'.log[n];
    forall k | 0 <= k < |run'.log|
      ensures QueuedFor(seeds, eng, run'.log[..k], run'.log[k].seed, run'.log[k].url)
    {
      if k < n {
        assert run'.log[..k] == run.log[..k] && run'.log[k] == run.log[k];
      } else {
        assert run'.log[..k] == run.log;
      }
    }
    forall u | u in toVisit - {url} + Offered(seeds, eng, run')
      ensures QueuedFor(seeds, eng, run'.log, i, u)
    {
      if u in toVisit {
        QueuedGrows(seeds, eng, run.log, v, i, u);
      } else {
        assert run'.log[n].seed == i && u in HostLinks(seeds, eng, run'.log[n]);
      }
    }
  }

  /** The seeds before `i` are finished in `log`: each was fetched, and so
      was every same-host link of every page fetched for them. */
  ghost predicate SeedsDone(seeds: seq<string>, eng: Engine, log: seq<Visit>, i: nat) {
    && (forall j :: 0 <= j < i && j < |seeds| ==> seeds[j] in Urls(log))
    && (forall k :: 0 <= k < |log| && log[k].seed < i ==> HostLinks(seeds, eng, log[k]) <= Urls(log))
  }

  /** A seed's first fetch comes only after every earlier seed is finished:
      its frontier loop moves on only once its frontier is empty. */
  ghost predicate SeedsInTurn(seeds: seq<string>, eng: Engine, log: seq<Visit>) {
    log == [] || (SeedsInTurn(seeds, eng, log[..|log| - 1]) && SeedsDone(seeds, eng, log[..|log| - 1], log[|log| - 1].seed))
  }

  /** So each fetch `k` came after the seeds before its own were finished
      in `log[..k]`. */
  lemma {:induction false} InTurnAtEach(seeds: seq<string>, eng: Engine, log: seq<Visit>)
    requires SeedsInTurn(seeds, eng, log)
    ensures forall k :: 0 <= k < |log| ==> SeedsDone(seeds, eng, log[..k], log[k].seed)
  {
    if log != [] {
      var init := log[..|log| - 1];
      InTurnAtEach(seeds, eng, init);
      forall k | 0 <= k < |log|
        ensures SeedsDone(seeds, eng, log[..k], log[k].seed)
      {
        if k < |init| {
          DoneSame(seeds, eng, init[..k], log[..k], init[k].seed, log[k].seed);
        } else {
          DoneSame(seeds, eng, init, log[..k], log[k].seed, log[k].seed);
        }
      }
    }
  }

  /** Being finished depends only on the log and the seed position. */
  lemma DoneSame(seeds: seq<string>, eng: Engine, a: seq<Visit>, b: seq<Visit>, i: nat, i': nat)
    requires a == b && i == i' && SeedsDone(seeds, eng, a, i)
    ensures SeedsDone(seeds, eng, b, i')
  {
  }

  /** Logging a fetch for seed `i` or later keeps the seeds before `i`
      finished. */
  lemma DoneGrows(seeds: seq<string>, eng: Engine, log: seq<Visit>, v: Visit, i: nat)
    requires SeedsDone(seeds, eng, log, i) && i <= v.seed
    ensures SeedsDone(seeds, eng, log + [v], i)
  {
    VisitAppended(log, v, eng.extract);
    forall k | 0 <= k < |log + [v]| && (log + [v])[k].seed < i
      ensures HostLinks(seeds, eng, (log + [v])[k]) <= Urls(log + [v])
    {
      assert (log + [v])[k] == log[k];
    }
  }

  /** A visit for seed `i`, made while the seeds before `i` are finished,
      keeps every fetch in turn. */
  lemma VisitInTurn(seeds: seq<string>, eng: Engine, i: nat, run: Run, url: string)
    requires SeedsInTurn(seeds, eng, run.log) && SeedsDone(seeds, eng, run.log, i)
    ensures var run' := VisitUrl(eng, i, run, url);
      SeedsInTurn(seeds, eng, run'.log) && SeedsDone(seeds, eng, run'.log, i)
  {
    var run' := VisitUrl(eng, i, run, url);
    var n := |run.log|;
    assert run'.log[..n] == run.log;
    DoneGrows(seeds, eng, run.log, run'.log[n], i);
  }

  /** The invariant of the frontier loop of seed `i`. */
  ghost predicate Frontier(seeds: seq<string>, prior: seq<PageRecord>, eng: Engine, i: nat, run: Run, toVisit: set<string>) {
    && i < |seeds|
    && Sound(seeds, prior, eng, i + 1, run)
    && (forall u :: u in toVisit ==> InDomain(eng.hostname, u, seeds[i]))
    && (seeds[i] in toVisit || seeds[i] in run.visited)
    && LogQueued(seeds, eng, run.log)
    && (forall u :: u in toVisit ==> QueuedFor(seeds, eng, run.log, i, u))
    && SeedsInTurn(seeds, eng, run.log)
    && (!Full(run) ==> SeedsDone(seeds, eng, run.log, i))
    && SeedsCovered(seeds, run, i)
    && LinksClosed(seeds, eng, run, toVisit, i)
  }

  /** Record `url` as visited whether or not the fetch succeeds, fetch it
      in the next request slot and, exactly when a non-empty page came back,
      append its record and sleep one delay of at least half a second. */
  function VisitUrl(eng: Engine, i: nat, run: Run, url: string): (run': Run)
    ensures run'.log == run.log + [Visit(url, i, eng.fetch(url, |run.log|).value)]
    ensures run'.visited == run.visited + {url}
    ensures run.store <= run'.store && |run'.store| <= |run.store| + 1
    ensures |run'.store| > |run.store| <==> Saves(run'.log[|run.log|])
    ensures |run'.store| > |run.store| ==> run'.store[|run.store|] == RecordOf(run'.log[|run.log|], eng.extract)
    ensures run'.delays == run.delays + |run'.store| - |run.store|
    ensures run'.slept >= run.slept + MIN_DELAY * (run'.delays - run.delays) as real
  {
    var fetched := eng.fetch(url, |run.log|);
    var v := Visit(url, i, fetched.value);
    var slept := run.slept + fetched.slept as real;
    if Saves(v) then
      Run(run.store + [RecordOf(v, eng.extract)], run.visited + {url}, run.log + [v],
          run.delays + 1, slept + Delay(eng.jitter(run.delays)))
    else
      Run(run.store, run.visited + {url}, run.log + [v], run.delays, slept)
  }

  /** The links a visit queues: the last fetched page's links on the seed's
      host that are not visited yet. */
  function Offered(seeds: seq<string>, eng: Engine, run': Run): set<string>
    requires run'.log != []
  {
    HostLinks(seeds, eng, run'.log[|run'.log| - 1]) - run'.visited
  }

  /** Logging the fetch of a URL in the current seed's domain keeps the log sound. */
  lemma LogAppend(seeds: seq<string>, eng: Engine, i: nat, log: seq<Visit>, v: Visit)
    requires i < |seeds|
    requires LogSound(seeds, eng, i + 1, log)
    requires v.seed == i && v.html == eng.fetch(v.url, |log|).value
    requires InDomain(eng.hostname, v.url, seeds[i])
    ensures LogSound(seeds, eng, i + 1, log + [v])
  {
    AppendOrdered(log, v);
    assert forall k :: 0 <= k < |log| ==> (log + [v])[k] == log[k];
  }

  /** Visiting a new URL adds it to `visited` and to the log alike. */
  lemma VisitedAppend(eng: Engine, i: nat, run: Run, url: string)
    requires VisitedSound(run)
    requires url !in run.visited && |run.visited| < MAX_PAGES_PER_DOMAIN
    ensures VisitedSound(VisitUrl(eng, i, run, url))
  {
    var run' := VisitUrl(eng, i, run, url);
    VisitAppended(run.log, run'.log[|run.log|], eng.extract);
  }

  /** A visit saves its page's record exactly when it sleeps one more delay. */
  lemma StoreAppend(prior: seq<PageRecord>, eng: Engine, i: nat, run: Run, url: string)
    requires StoreSound(prior, eng, run)
    ensures StoreSound(prior, eng, VisitUrl(eng, i, run, url))
  {
    var run' := VisitUrl(eng, i, run, url);
    VisitAppended(run.log, run'.log[|run.log|], eng.extract);
  }

  /** The links a visit of seed `i` queues share the host of seed `i` and
      are not visited yet. */
  lemma OfferedInDomain(seeds: seq<string>, eng: Engine, i: nat, run': Run)
    requires i < |seeds| && run'.log != [] && run'.log[|run'.log| - 1].seed == i
    ensures forall u :: u in Offered(seeds, eng, run') ==> InDomain(eng.hostname, u, seeds[i]) && u !in run'.visited
  {
  }

  /** Visiting a new URL of the seed's domain keeps the run sound. */
  lemma VisitSound(seeds: seq<string>, prior: seq<PageRecord>, eng: Engine, i: nat, run: Run, url: string)
    requires i < |seeds| && Sound(seeds, prior, eng, i + 1, run)
    requires url !in run.visited && |run.visited| < MAX_PAGES_PER_DOMAIN
    requires InDomain(eng.hostname, url, seeds[i])
    ensures Sound(seeds, prior, eng, i + 1, VisitUrl(eng, i, run, url))
  {
    var run' := VisitUrl(eng, i, run, url);
    LogAppend(seeds, eng, i, run.log, run'.log[|run.log|]);
    VisitedAppend(eng, i, run, url);
    StoreAppend(prior, eng, i, run, url);
  }

  /** Visiting `url` keeps every known same-host link visited or pending. */
  lemma VisitClosed(seeds: seq<string>, eng: Engine, i: nat, run: Run, toVisit: set<string>, url: string)
    requires i < |seeds|
    requires url in toVisit && url !in run.visited && !Full(run)
    requires LinksClosed(seeds, eng, run, toVisit, i)
    ensures var run' := VisitUrl(eng, i, run, url);
      LinksClosed(seeds, eng, run', toVisit - {url} + Offered(seeds, eng, run'), i)
  {
    var run' := VisitUrl(eng, i, run, url);
    var pending := toVisit - {url} + Offered(seeds, eng, run');
    forall k, l | 0 <= k < |run'.log| && l in HostLinks(seeds, eng, run'.log[k])
      ensures l in run'.visited || (run'.log[k].seed == i && l in pending)
    {
      if k < |run.log| {
        assert run'.log[k] == run.log[k];
        assert l in run.visited || (run.log[k].seed == i && l in toVisit);
      }
    }
  }

  /** Visiting an unvisited URL popped from the frontier keeps the loop
      invariant, with the page's fresh same-host links queued. */
  lemma VisitKeeps(seeds: seq<string>, prior: seq<PageRecord>, eng: Engine, i: nat, run: Run, toVisit: set<string>, url: string)
    requires Frontier(seeds, prior, eng, i, run, toVisit)
    requires url in toVisit && url !in run.visited && !Full(run)
    ensures var run' := VisitUrl(eng, i, run, url);
      Frontier(seeds, prior, eng, i, run', toVisit - {url} + Offered(seeds, eng, run'))
  {
    VisitSound(seeds, prior, eng, i, run, url);
    VisitClosed(seeds, eng, i, run, toVisit, url);
    OfferedInDomain(seeds, eng, i, VisitUrl(eng, i, run, url));
    VisitQueued(seeds, eng, i, run, toVisit, url);
    VisitInTurn(seeds, eng, i, run, url);
  }

  /** A visited URL may leave the pending set without breaking closure. */
  lemma DropVisited(seeds: seq<string>, eng: Engine, run: Run, pending: set<string>, url: string, cur: nat)
    requires LinksClosed(seeds, eng, run, pending, cur)
    requires url in run.visited
    ensures LinksClosed(seeds, eng, run, pending - {url}, cur)
  {
    forall k, l | 0 <= k < |run.log| && l in HostLinks(seeds, eng, run.log[k])
      ensures l in run.visited || Full(run) || (run.log[k].seed == cur && l in pending - {url})
    {
    }
  }

  /** Dropping an already visited URL from the frontier keeps the invariant. */
  lemma SkipKeeps(seeds: seq<string>, prior: seq<PageRecord>, eng: Engine, i: nat, run: Run, toVisit: set<string>, url: string)
    requires Frontier(seeds, prior, eng, i, run, toVisit)
    requires url in run.visited
    ensures Frontier(seeds, prior, eng, i, run, toVisit - {url})
  {
    DropVisited(seeds, eng, run, toVisit, url, i);
  }

  /** Seed `i` starts its frontier loop from the seed alone. */
  lemma FrontierStart(seeds: seq<string>, prior: seq<PageRecord>, eng: Engine, i: nat, run: Run)
    requires i < |seeds| && Progress(seeds, prior, eng, i, run)
    ensures Frontier(seeds, prior, eng, i, run, {seeds[i]})
  {
  }

  /** Short of the cap, with nothing pending, every same-host link of a
      fetched page is visited. */
  lemma ClosedLinksVisited(seeds: seq<string>, eng: Engine, run: Run, i: nat, k: nat)
    requires LinksClosed(seeds, eng, run, {}, i) && !Full(run) && k < |run.log|
    ensures HostLinks(seeds, eng, run.log[k]) <= run.visited
  {
    forall l | l in HostLinks(seeds, eng, run.log[k])
      ensures l in run.visited
    {
    }
  }

  /** Seed `i` is finished once it is visited and, short of the cap, none
      of its pages' same-host links is left unvisited. */
  lemma SeedFinished(seeds: seq<string>, eng: Engine, i: nat, run: Run)
    requires SeedsDone(seeds, eng, run.log, i) && !Full(run)
    requires i < |seeds| && seeds[i] in run.visited && run.visited == Urls(run.log)
    requires LinksClosed(seeds, eng, run, {}, i)
    ensures SeedsDone(seeds, eng, run.log, i + 1)
  {
    forall j | 0 <= j < i + 1 && j < |seeds|
      ensures seeds[j] in Urls(run.log)
    {
    }
    forall k | 0 <= k < |run.log| && run.log[k].seed < i + 1
      ensures HostLinks(seeds, eng, run.log[k]) <= Urls(run.log)
    {
      ClosedLinksVisited(seeds, eng, run, i, k);
    }
  }

  /** When the frontier loop of seed `i` stops, seed `i` is done. */
  lemma FrontierEnd(seeds: seq<string>, prior: seq<PageRecord>, eng: Engine, i: nat, run: Run, toVisit: set<string>)
    requires Frontier(seeds, prior, eng, i, run, toVisit)
    requires toVisit == {} || Full(run)
    ensures Progress(seeds, prior, eng, i + 1, run)
  {
    if !Full(run) {
      SeedFinished(seeds, eng, i, run);
    }
  }

  /** The frontier loop of seed `i`: `while to_visit and len(visited) < 5`,
      popping an arbitrary URL each time. */
  method CrawlSeed(seeds: seq<string>, prior: seq<PageRecord>, eng: Engine, i: nat, run: Run) returns (run': Run)
    requires i < |seeds| && Progress(seeds, prior, eng, i, run)
    ensures Progress(seeds, prior, eng, i + 1, run')
  {
    run' := run;
    var toVisit := {seeds[i]};
    FrontierStart(seeds, prior, eng, i, run);
    while toVisit != {} && |run'.visited| < MAX_PAGES_PER_DOMAIN
      invariant Frontier(seeds, prior, eng, i, run', toVisit)
      decreases MAX_PAGES_PER_DOMAIN - |run'.visited|, |toVisit|
    {
      var url :| url in toVisit;
      if url in run'.visited {
        SkipKeeps(seeds, prior, eng, i, run', toVisit, url);
        toVisit := toVisit - {url};
        continue;
      }
      VisitKeeps(seeds, prior, eng, i, run', toVisit, url);
      run' := VisitUrl(eng, i, run', url);
      toVisit := toVisit - {url} + Offered(seeds, eng, run');
    }
    FrontierEnd(seeds, prior, eng, i, run', toVisit);
  }

  /** What holds once the seeds before `i` have been crawled. */
  ghost predicate Progress(seeds: seq<string>, prior: seq<PageRecord>, eng: Engine, i: nat, run: Run) {
    && Sound(seeds, prior, eng, i, run)
    && SeedsCovered(seeds, run, i)
    && LinksClosed(seeds, eng, run, {}, i)
    && LogQueued(seeds, eng, run.log)
    && SeedsInTurn(seeds, eng, run.log)
    && (!Full(run) ==> SeedsDone(seeds, eng, run.log, i))
  }

  /** The seed loop of `crawl` from seed `i` on, over any fetcher and
      extractor. */
  method RunFrom(seeds: seq<string>, prior: seq<PageRecord>, eng: Engine, i: nat, run: Run) returns (run': Run)
    requires i <= |seeds| && Progress(seeds, prior, eng, i, run)
    ensures Progress(seeds, prior, eng, |seeds|, run')
    decreases |seeds| - i
  {
    if i < |seeds| {
      var next := CrawlSeed(seeds, prior, eng, i, run);
      run' := RunFrom(seeds, prior, eng, i + 1, next);
    } else {
      run' := run;
    }
  }

  /** The seed loop of `crawl`, over any fetcher and extractor. */
  method RunSeeds(seeds: seq<string>, prior: seq<PageRecord>, eng: Engine) returns (run: Run)
    ensures Sound(seeds, prior, eng, |seeds|, run)
    ensures SeedsCovered(seeds, run, |seeds|)
    ensures LinksClosed(seeds, eng, run, {}, |seeds|)
    ensures LogQueued(seeds, eng, run.log)
    ensures SeedsInTurn(seeds, eng, run.log)
  {
    assert Progress(seeds, prior, eng, 0, Run(prior, {}, [], 0, 0.0));
    run := RunFrom(seeds, prior, eng, 0, Run(prior, {}, [], 0, 0.0));
  }

  /** `parse_page(url, html)` as the crawl calls it. */
  function PageOf(env: Env): (string, string) -> Page {
    (url: string, html: string) => ParsePage(env.join, url, env.soup(html))
  }

  function EngineOf(env: Env): Engine {
    Engine((url: string, slot: nat) => FetchText(env.net, url, slot), PageOf(env), env.hostname, env.jitter)
  }

  /** The engine's fetches are `fetch_url`'s results, read off the network. */
  lemma FetchedByFetchText(seeds: seq<string>, env: Env, log: seq<Visit>)
    requires LogSound(seeds, EngineOf(env), |seeds|, log)
    ensures forall k :: 0 <= k < |log| ==> log[k].html == FetchText(env.net, log[k].url, k).value
  {
    forall k | 0 <= k < |log|
      ensures log[k].html == FetchText(env.net, log[k].url, k).value
    {
      assert EngineOf(env).fetch(log[k].url, k) == FetchText(env.net, log[k].url, k);
    }
  }

  /** Link closure, stated with `parse_page`'s links and the host test. */
  lemma LinksFollowed(seeds: seq<string>, env: Env, run: Run)
    requires LogSound(seeds, EngineOf(env), |seeds|, run.log)
    requires LinksClosed(seeds, EngineOf(env), run, {}, |seeds|)
    ensures forall k, l :: 0 <= k < |run.log| && l in LinksOf(run.log[k], PageOf(env))
              && env.hostname(l) == env.hostname(seeds[run.log[k].seed])
              ==> l in run.visited || Full(run)
  {
    forall k, l | 0 <= k < |run.log| && l in LinksOf(run.log[k], PageOf(env))
      && env.hostname(l) == env.hostname(seeds[run.log[k].seed])
      ensures l in run.visited || Full(run)
    {
      assert l in HostLinks(seeds, EngineOf(env), run.log[k]);
    }
  }

  /** Provenance, stated with `parse_page`'s links and the host test. */
  lemma QueuedFromPages(seeds: seq<string>, env: Env, log: seq<Visit>)
    requires LogQueued(seeds, EngineOf(env), log)
    ensures forall k :: 0 <= k < |log| ==>
              log[k].seed < |seeds| && (log[k].url == seeds[log[k].seed]
              || exists j :: 0 <= j < k && log[j].seed == log[k].seed && log[k].url in LinksOf(log[j], PageOf(env))
                             && env.hostname(log[k].url) == env.hostname(seeds[log[k].seed]))
  {
    forall k | 0 <= k < |log|
      ensures log[k].seed < |seeds| && (log[k].url == seeds[log[k].seed]
              || exists j :: 0 <= j < k && log[j].seed == log[k].seed && log[k].url in LinksOf(log[j], PageOf(env))
                             && env.hostname(log[k].url) == env.hostname(seeds[log[k].seed]))
    {
      assert QueuedFor(seeds, EngineOf(env), log[..k], log[k].seed, log[k].url);
      if log[k].url != seeds[log[k].seed] {
        var j :| 0 <= j < k && log[..k][j].seed == log[k].seed
                 && log[k].url in HostLinks(seeds, EngineOf(env), log[..k][j]);
        assert log[..k][j] == log[j];
      }
    }
  }

  /** Turn-taking, stated with `parse_page`'s links and the host test: a
      fetch for seed `i` comes after every earlier seed was fetched and after
      every same-host link of every page fetched for an earlier seed. */
  lemma InTurnFromPages(seeds: seq<string>, env: Env, log: seq<Visit>)
    requires SeedsInTurn(seeds, EngineOf(env), log)
    requires forall k :: 0 <= k < |log| ==> log[k].seed < |seeds|
    ensures forall k, j :: 0 <= k < |log| && 0 <= j < log[k].seed ==> seeds[j] in Urls(log[..k])
    ensures forall k, k', l :: 0 <= k < k' < |log| && log[k].seed < log[k'].seed
              && l in LinksOf(log[k], PageOf(env)) && env.hostname(l) == env.hostname(seeds[log[k].seed])
              ==> l in Urls(log[..k'])
  {
    InTurnAtEach(seeds, EngineOf(env), log);
    forall k, k', l | 0 <= k < k' < |log| && log[k].seed < log[k'].seed
      && l in LinksOf(log[k], PageOf(env)) && env.hostname(l) == env.hostname(seeds[log[k].seed])
      ensures l in Urls(log[..k'])
    {
      assert log[..k'][k] == log[k];
      assert l in HostLinks(seeds, EngineOf(env), log[k]);
    }
    forall k, j | 0 <= k < |log| && 0 <= j < log[k].seed
      ensures seeds[j] in Urls(log[..k])
    {
    }
  }

  /** The seed loop's fetches, stated over `fetch_url` and `parse_page`: at
      most five URLs in the whole run, each fetched once, with `fetch_url`'s
      answer in its slot; every URL in its seed's domain; seeds in order; and
      every URL the seed itself or a same-host link of an earlier page of
      that seed. */
  lemma FetchesMean(seeds: seq<string>, prior: seq<PageRecord>, env: Env, run: Run)
    requires Sound(seeds, prior, EngineOf(env), |seeds|, run)
    requires LogQueued(seeds, EngineOf(env), run.log)
    ensures |run.visited| <= MAX_PAGES_PER_DOMAIN
    ensures run.visited == Urls(run.log) && DistinctUrls(run.log)
    ensures forall k :: 0 <= k < |run.log| ==> run.log[k].html == FetchText(env.net, run.log[k].url, k).value
    ensures forall k :: 0 <= k < |run.log| ==>
              run.log[k].seed < |seeds| && InDomain(env.hostname, run.log[k].url, seeds[run.log[k].seed])
    ensures forall j, k :: 0 <= j < k < |run.log| ==> run.log[j].seed <= run.log[k].seed
    ensures forall k :: 0 <= k < |run.log| ==>
              (run.log[k].url == seeds[run.log[k].seed]
               || exists j :: 0 <= j < k && run.log[j].seed == run.log[k].seed && run.log[k].url in LinksOf(run.log[j], PageOf(env))
                              && env.hostname(run.log[k].url) == env.hostname(seeds[run.log[k].seed]))
  {
    UrlsCount(run.log);
    SeedOrder(run.log);
    FetchedByFetchText(seeds, env, run.log);
    QueuedFromPages(seeds, env, run.log);
  }

  /** The seed loop's order and reach, stated over `parse_page`: a seed's
      first fetch comes only after every earlier seed and all their pages'
      same-host links were fetched; and, unless the cap is reached, every
      seed and every same-host link of a saved page is visited. */
  lemma LinksMean(seeds: seq<string>, prior: seq<PageRecord>, env: Env, run: Run)
    requires Sound(seeds, prior, EngineOf(env), |seeds|, run)
    requires SeedsCovered(seeds, run, |seeds|)
    requires LinksClosed(seeds, EngineOf(env), run, {}, |seeds|)
    requires SeedsInTurn(seeds, EngineOf(env), run.log)
    ensures forall k :: 0 <= k < |run.log| ==> run.log[k].seed < |seeds|
    ensures forall k, j :: 0 <= k < |run.log| && 0 <= j < run.log[k].seed ==> seeds[j] in Urls(run.log[..k])
    ensures forall k, k', l :: 0 <= k < k' < |run.log| && run.log[k].seed < run.log[k'].seed
              && l in LinksOf(run.log[k], PageOf(env)) && env.hostname(l) == env.hostname(seeds[run.log[k].seed])
              ==> l in Urls(run.log[..k'])
    ensures forall i :: 0 <= i < |seeds| ==> seeds[i] in run.visited || Full(run)
    ensures forall k, l :: 0 <= k < |run.log| && l in LinksOf(run.log[k], PageOf(env))
              && env.hostname(l) == env.hostname(seeds[run.log[k].seed])
              ==> l in run.visited || Full(run)
  {
    LinksFollowed(seeds, env, run);
    InTurnFromPages(seeds, env, run.log);
  }

  /** `crawl(seed_urls)` of crawler/crawler.py. `prior` is what the JSON-lines
      file held before the run (it is opened for appending). The whole run
      shares one `visited` set, so the cap of five bounds all seeds together,
      and each URL is fetched at most once, whether or not the fetch
      succeeds. The file gains exactly the saved records, one delay each. */
  method Crawl(seeds: seq<string>, prior: seq<PageRecord>, env: Env) returns (run: Run)
    ensures |run.visited| <= MAX_PAGES_PER_DOMAIN
    ensures run.visited == Urls(run.log) && DistinctUrls(run.log)
    ensures forall k :: 0 <= k < |run.log| ==> run.log[k].html == FetchText(env.net, run.log[k].url, k).value
    ensures forall k :: 0 <= k < |run.log| ==>
              run.log[k].seed < |seeds| && InDomain(env.hostname, run.log[k].url, seeds[run.log[k].seed])
    ensures forall j, k :: 0 <= j < k < |run.log| ==> run.log[j].seed <= run.log[k].seed
    ensures forall k :: 0 <= k < |run.log| ==>
              (run.log[k].url == seeds[run.log[k].seed]
               || exists j :: 0 <= j < k && run.log[j].seed == run.log[k].seed && run.log[k].url in LinksOf(run.log[j], PageOf(env))
                              && env.hostname(run.log[k].url) == env.hostname(seeds[run.log[k].seed]))
    ensures forall k, j :: 0 <= k < |run.log| && 0 <= j < run.log[k].seed ==> seeds[j] in Urls(run.log[..k])
    ensures forall k, k', l :: 0 <= k < k' < |run.log| && run.log[k].seed < run.log[k'].seed
              && l in LinksOf(run.log[k], PageOf(env)) && env.hostname(l) == env.hostname(seeds[run.log[k].seed])
              ==> l in Urls(run.log[..k'])
    ensures forall i :: 0 <= i < |seeds| ==> seeds[i] in run.visited || Full(run)
    ensures forall k, l :: 0 <= k < |run.log| && l in LinksOf(run.log[k], PageOf(env))
              && env.hostname(l) == env.hostname(seeds[run.log[k].seed])
              ==> l in run.visited || Full(run)
    ensures run.store == prior + Saved(run.log, PageOf(env))
    ensures run.delays == |Saved(run.log, PageOf(env))|
    ensures run.slept >= MIN_DELAY * run.delays as real
  {
    run := RunSeeds(seeds, prior, EngineOf(env));
    FetchesMean(seeds, prior, env, run);
    LinksMean(seeds, prior, env, run);
  }

  /** `crawl(seed_urls, status_bar)` of dashcrawlerrun.py: the same engine
      after the data file is emptied, so the file ends up holding exactly
      this run's records, in save order, one per fetched URL at most. */
  method DashCrawl(seeds: seq<string>, env: Env) returns (run: Run)
    ensures |run.visited| <= MAX_PAGES_PER_DOMAIN
    ensures run.visited == Urls(run.log) && DistinctUrls(run.log)
    ensures forall k :: 0 <= k < |run.log| ==> run.log[k].html == FetchText(env.net, run.log[k].url, k).value
    ensures forall k :: 0 <= k < |run.log| ==>
              run.log[k].seed < |seeds| && InDomain(env.hostname, run.log[k].url, seeds[run.log[k].seed])
    ensures forall j, k :: 0 <= j < k < |run.log| ==> run.log[j].seed <= run.log[k].seed
    ensures forall k :: 0 <= k < |run.log| ==>
              (run.log[k].url == seeds[run.log[k].seed]
               || exists j :: 0 <= j < k && run.log[j].seed == run.log[k].seed && run.log[k].url in LinksOf(run.log[j], PageOf(env))
                              && env.hostname(run.log[k].url) == env.hostname(seeds[run.log[k].seed]))
    ensures forall k, j :: 0 <= k < |run.log| && 0 <= j < run.log[k].seed ==> seeds[j] in Urls(run.log[..k])
    ensures forall k, k', l :: 0 <= k < k' < |run.log| && run.log[k].seed < run.log[k'].seed
              && l in LinksOf(run.log[k], PageOf(env)) && env.hostname(l) == env.hostname(seeds[run.log[k].seed])
              ==> l in Urls(run.log[..k'])
    ensures forall i :: 0 <= i < |seeds| ==> seeds[i] in run.visited || Full(run)
    ensures forall k, l :: 0 <= k < |run.log| && l in LinksOf(run.log[k], PageOf(env))
              && env.hostname(l) == env.hostname(seeds[run.log[k].seed])
              ==> l in run.visited || Full(run)
    ensures run.store == Saved(run.log, PageOf(env))
    ensures forall j :: 0 <= j < |run.store| ==> run.store[j].url in run.visited
    ensures forall i, j :: 0 <= i < j < |run.store| ==> run.store[i].url != run.store[j].url
    ensures run.delays == |run.store| <= |run.log|
    ensures run.slept >= MIN_DELAY * run.delays as real
  {
    run := Crawl(seeds, [], env);
    SavedFromLog(run.log, PageOf(env));
  }
}

=== FILE: seed_crawler.dfy ===
/** The seed-only SQLite crawler of crawler/crawler1.py: a fetch that refuses
    oversized pages and cuts the rest to 200 KB, a row extractor gated on a
    200 text response, an insert-or-ignore `pages` table, and a loop over
    the seeds with per-domain counters and a Tor identity rotation every
    fifty stored pages. */
module SeedCrawler {
  import opened Optional
  import opened PyStr
  import opened Transport
  import opened Html
  import opened RateGate
  import opened Services

  const MAX_CONTENT_BYTES: nat := 200 * 1024
  const RENEW_AFTER_REQUESTS: nat := 50
  const MAX_PAGES_PER_DOMAIN: nat := 20
  /** The pause that lets a new Tor identity propagate. */
  const ROTATE_SECONDS: real := 10.0
  const SNIPPET_TAGS: set<string> := {"p", "h1", "h2"}
  const MAX_SNIPPET: nat := 400
  /** `resp.text[:1000]`, of which the fallback snippet keeps `[:200]`. */
  const TEXT_HEAD: nat := 1000
  const TEXT_SNIPPET: nat := 200

  // ---------------------------------------------------------------- fetch

  /** How `fetch_url` ends: it returns a response or `None`, or `int(cl)`
      raises `ValueError` on a malformed Content-Length. That exception is
      not a `RequestException`, so neither the retry loop nor `crawl`
      catches it. */
  datatype Capped = Returned(resp: Option<Response>) | LengthError

  /** `cl and int(cl) > MAX_CONTENT_BYTES` for a header `int` accepts. */
  predicate TooLarge(r: Response) {
    r.contentLength.Declared? && r.contentLength.n > MAX_CONTENT_BYTES
  }

  /** `fetch_url(session, url)`: the first attempt that does not raise ends
      the loop. A declared length above 200 KB gives `None` with no further
      attempt; otherwise the response comes back whatever its status, with
      its body cut to the first 200 KB. */
  function FetchCapped(net: Network, url: string, slot: nat): (r: Fetched<Capped>)
    ensures 1 <= r.attempts <= MAX_RETRIES
    ensures AllRaised(net, url, slot, 1, r.attempts)
    ensures r.slept == RaisedBackoff(net, url, slot, 1, r.attempts + 1)
    ensures r.value == LengthError <==>
      net(url, slot, r.attempts).Reply? && net(url, slot, r.attempts).resp.contentLength.Unparsable?
    ensures r.value == Returned(None) <==>
      AllRaised(net, url, slot, 1, MAX_RETRIES + 1)
      || (net(url, slot, r.attempts).Reply? && TooLarge(net(url, slot, r.attempts).resp))
    ensures r.value.Returned? && r.value.resp.Some? ==>
      var sent := net(url, slot, r.attempts);
      var got := r.value.resp.value;
      && sent.Reply? && !TooLarge(sent.resp)
      && got.status == sent.resp.status && got.contentType == sent.resp.contentType
      && got.body <= sent.resp.body
      && |got.body| == if |sent.resp.body| <= MAX_CONTENT_BYTES then |sent.resp.body| else MAX_CONTENT_BYTES
  {
    var first := FirstReply(net, url, slot);
    var v := match first.value
      case None => Returned(None)
      case Some(resp) =>
        if resp.contentLength.Unparsable? then LengthError
        else if TooLarge(resp) then Returned(None)
        else Returned(Some(resp.(body := Take(resp.body, MAX_CONTENT_BYTES))));
    Fetched(v, first.attempts, first.slept)
  }

  /** An oversized first reply ends the fetch at once: one attempt, no
      sleep, no response. */
  lemma TooLargeStopsAtOnce(net: Network, url: string, slot: nat)
    requires net(url, slot, 1).Reply? && TooLarge(net(url, slot, 1).resp)
    ensures FetchCapped(net, url, slot) == Fetched(Returned(None), 1, 0)
  {
  }

  /** When every attempt raises, the fetch gives `None` after three attempts
      and 2 + 4 + 8 seconds of back-off. */
  lemma FetchCappedAllRaise(net: Network, url: string, slot: nat)
    requires AllRaised(net, url, slot, 1, MAX_RETRIES + 1)
    ensures FetchCapped(net, url, slot) == Fetched(Returned(None), MAX_RETRIES, 14)
  {
    FirstReplyBackoff(net, url, slot);
  }

  // ---------------------------------------------------------------- parse

  /** A row of the `pages` table (the `id` and `fetched_at` columns are
      generated by SQLite and left out). */
  datatype Row = Row(url: string, domain: string, status: int, title: Option<string>, snippet: Option<string>)

  /** `soup.title.string.strip() if soup.title and soup.title.string else None`. */
  function RowTitle(doc: Doc): (t: Option<string>)
    ensures t.None? <==> doc.title.None? || doc.title.value == []
    ensures t.Some? ==> SpaceFramed(t.value, doc.title.value)
    ensures t.Some? && t.value != [] ==> !IsSpace(t.value[0]) && !IsSpace(t.value[|t.value| - 1])
  {
    if doc.title.Some? && doc.title.value != [] then
      Some(Strip(doc.title.value))
    else None
  }

  /** `p.get_text(strip=True)[:400] if p else (text[:200] or None)` with
      `p = soup.find(["p", "h1", "h2"])` and `text = resp.text[:1000]`. */
  function RowSnippet(doc: Doc, body: string): (s: Option<string>)
    ensures s.Some? ==> |s.value| <= MAX_SNIPPET
    ensures s.None? <==> (forall j :: 0 <= j < |doc.elements| ==> !Matches(doc.elements[j], SNIPPET_TAGS, -1)) && body == []
    ensures FirstIndex(doc.elements, SNIPPET_TAGS, -1).Some? ==>
      s == Some(Take(doc.elements[FirstIndex(doc.elements, SNIPPET_TAGS, -1).value].text, MAX_SNIPPET))
    ensures FirstIndex(doc.elements, SNIPPET_TAGS, -1).None? && s.Some? ==>
      s.value <= body && |s.value| == if |body| <= TEXT_SNIPPET then |body| else TEXT_SNIPPET
  {
    match FirstIndex(doc.elements, SNIPPET_TAGS, -1)
    case Some(i) => Some(Take(doc.elements[i].text, MAX_SNIPPET))
    case None =>
      var head := Take(Take(body, TEXT_HEAD), TEXT_SNIPPET);
      if head == [] then None else Some(head)
  }

  /** `parse_and_store(conn, url, resp)` up to the `save_page` call: the row
      it offers to the table. */
  function ParseAndStore(env: Env, url: string, resp: Response): (row: Row)
    ensures row.url == url && row.domain == HostOr(env, url) && row.status == resp.status
    ensures row.title.Some? || row.snippet.Some? ==> IsTextOk(resp)
    ensures IsTextOk(resp) ==> row.title == RowTitle(env.soup(resp.body))
                                && row.snippet == RowSnippet(env.soup(resp.body), resp.body)
    ensures row.snippet.Some? ==> |row.snippet.value| <= MAX_SNIPPET
  {
    if IsTextOk(resp) then
      var doc := env.soup(resp.body);
      Row(url, HostOr(env, url), resp.status, RowTitle(doc), RowSnippet(doc, resp.body))
    else
      Row(url, HostOr(env, url), resp.status, None, None)
  }

  // ---------------------------------------------------------------- table

  /** The `url` column is `UNIQUE`. */
  ghost predicate UniqueUrls(t: seq<Row>) {
    forall i, j :: 0 <= i < j < |t| ==> t[i].url != t[j].url
  }

  /** `SELECT * FROM pages WHERE url = ?`: the first row with that URL. */
  function Lookup(t: seq<Row>, url: string): (r: Option<Row>)
    ensures r.Some? ==> r.value in t && r.value.url == url
    ensures r.None? <==> forall i :: 0 <= i < |t| ==> t[i].url != url
  {
    if t == [] then None
    else if t[0].url == url then Some(t[0])
    else
      var r := Lookup(t[1..], url);
      assert forall i :: 1 <= i < |t| ==> t[i] == t[1..][i - 1];
      r
  }

  /** Looking a URL up after appending a row: the old table answers first. */
  lemma {:induction false} LookupAppend(t: seq<Row>, row: Row, url: string)
    ensures Lookup(t + [row], url) == if Lookup(t, url).Some? then Lookup(t, url)
                                     else if row.url == url then Some(row) else None
  {
    if t != [] {
      assert (t + [row])[1..] == t[1..] + [row];
      LookupAppend(t[1..], row, url);
    }
  }

  /** `save_page`: `INSERT OR IGNORE` into a table whose `url` is unique.
      Rows are never rewritten; a new URL adds exactly one row. */
  function SavePage(t: seq<Row>, row: Row): (t': seq<Row>)
    ensures t <= t' && |t'| <= |t| + 1
    ensures Lookup(t', row.url).Some?
    ensures UniqueUrls(t) ==> UniqueUrls(t')
  {
    LookupAppend(t, row, row.url);
    if Lookup(t, row.url).Some? then t else t + [row]
  }

  /** First write wins: after a save, the row stored for a URL is the one
      stored before, if any; only an unknown URL gets the new row, and other
      URLs are unaffected. */
  lemma SaveThenLookup(t: seq<Row>, row: Row, url: string)
    ensures Lookup(SavePage(t, row), url) ==
      if url == row.url && Lookup(t, url).None? then Some(row) else Lookup(t, url)
  {
    LookupAppend(t, row, url);
  }

  // ---------------------------------------------------------------- counters

  /** Some key of a non-empty map. */
  ghost function Pick(m: map<string, nat>): (k: string)
    requires m.Keys != {}
    ensures k in m
  {
    var k :| k in m.Keys; k
  }

  /** The sum of the per-domain counters. */
  ghost function Total(m: map<string, nat>): nat
    decreases |m.Keys|
  {
    if m.Keys == {} then 0
    else
      var k := Pick(m);
      assert (m - {k}).Keys == m.Keys - {k};
      m[k] + Total(m - {k})
  }

  /** Any key can be taken out first. */
  lemma {:induction false} TotalRemove(m: map<string, nat>, k: string)
    requires k in m
    ensures Total(m) == m[k] + Total(m - {k})
    decreases |m.Keys|
  {
    var k' := Pick(m);
    if k' != k {
      var m1 := m - {k'};
      var m2 := m - {k};
      assert m1.Keys == m.Keys - {k'};
      assert m2.Keys == m.Keys - {k};
      TotalRemove(m1, k);
      TotalRemove(m2, k');
      assert m1 - {k} == m2 - {k'};
    }
  }

  /** Setting one counter moves the sum by the difference. */
  lemma TotalSet(m: map<string, nat>, k: string, v: nat)
    ensures Total(m[k := v]) == Total(m) - (if k in m then m[k] else 0) + v
  {
    TotalRemove(m[k := v], k);
    assert m[k := v] - {k} == m - {k};
    if k in m {
      TotalRemove(m, k);
    } else {
      assert m - {k} == m;
    }
  }

  /** `domain_counts[d]` after `setdefault(d, 0)`. */
  function CountOf(m: map<string, nat>, d: string): nat {
    if d in m then m[d] else 0
  }

  // ---------------------------------------------------------------- crawl

  /** One pass of the seed loop: a seed skipped because its domain is at the
      cap, or tried, with what `fetch_url` gave, whether a row was offered to
      the table, and whether the identity was rotated. */
  datatype Step = Skipped(url: string, domain: string)
                | Tried(url: string, domain: string, result: Fetched<Capped>, stored: bool, rotated: bool)

  /** The crawl's state: the table, `domain_counts`, `fetched_count`, one
      step per seed handled so far, the number of delays, the seconds slept,
      and whether a `ValueError` ended the run. */
  datatype State = State(table: seq<Row>, counts: map<string, nat>, fetched: nat, trace: seq<Step>,
                         delays: nat, slept: real, aborted: bool)

  /** `if resp:` after a fetch: a response came back and it is truthy. */
  predicate Kept(c: Capped) {
    c.Returned? && c.resp.Some? && Truthy(c.resp.value)
  }

  /** The seconds a pass sleeps when `n` delays came before it: a tried
      seed's back-off, ten seconds after a rotation and, unless a
      `ValueError` ended the run, the `random_delay()` drawn with the n-th
      jitter. A skipped seed sleeps nothing. */
  function PassSleep(env: Env, n: nat, step: Step): real {
    if step.Skipped? then 0.0
    else
      step.result.slept as real + (if step.rotated then ROTATE_SECONDS else 0.0)
      + (if step.result.value.LengthError? then 0.0 else Delay(env.jitter(n)))
  }

  /** One pass of the `for url in seed_urls` loop, on seed `|s.trace|`,
      given what `fetch_url` would return for it. */
  function Pass(env: Env, seeds: seq<string>, s: State, f: Fetched<Capped>): (s': State)
    requires |s.trace| < |seeds| && !s.aborted
    ensures |s'.trace| == |s.trace| + 1 && s'.trace[..|s.trace|] == s.trace
    ensures s'.trace[|s.trace|].url == seeds[|s.trace|]
    ensures s'.trace[|s.trace|].domain == HostOr(env, seeds[|s.trace|])
    ensures HostOr(env, seeds[|s.trace|]) in s'.counts
    ensures var step := s'.trace[|s.trace|];
      && (step.Skipped? <==> CountOf(s.counts, step.domain) >= MAX_PAGES_PER_DOMAIN)
      && (step.Tried? ==> step.result == f && (step.stored <==> Kept(f.value)))
      && (s'.aborted <==> step.Tried? && f.value.LengthError?)
      && (step.Tried? ==> (step.rotated <==> !s'.aborted && s'.fetched > 0 && s'.fetched % RENEW_AFTER_REQUESTS == 0))
      && s'.fetched == s.fetched + (if step.Tried? && step.stored then 1 else 0)
      && s'.counts == (var m1 := s.counts[step.domain := CountOf(s.counts, step.domain)];
                       if step.Tried? && step.stored then m1[step.domain := m1[step.domain] + 1] else m1)
      && s'.table == (if step.Tried? && step.stored then SavePage(s.table, ParseAndStore(env, step.url, f.value.resp.value))
                      else s.table)
      && s'.delays == s.delays + (if step.Tried? && !s'.aborted then 1 else 0)
      && s'.slept == s.slept + PassSleep(env, s.delays, step)
  {
    var url := seeds[|s.trace|];
    var domain := HostOr(env, url);
    var counts := s.counts[domain := CountOf(s.counts, domain)];
    if counts[domain] >= MAX_PAGES_PER_DOMAIN then
      s.(counts := counts, trace := s.trace + [Skipped(url, domain)])
    else
      var slept := s.slept + f.slept as real;
      if f.value.LengthError? then
        s.(counts := counts, trace := s.trace + [Tried(url, domain, f, false, false)], slept := slept, aborted := true)
      else
        var stored := Kept(f.value);
        var table := if stored then SavePage(s.table, ParseAndStore(env, url, f.value.resp.value)) else s.table;
        var fetched := if stored then s.fetched + 1 else s.fetched;
        var counts' := if stored then counts[domain := counts[domain] + 1] else counts;
        var rotated := fetched > 0 && fetched % RENEW_AFTER_REQUESTS == 0;
        var pause := if rotated then ROTATE_SECONDS else 0.0;
        State(table, counts', fetched, s.trace + [Tried(url, domain, f, stored, rotated)],
              s.delays + 1, slept + pause + Delay(env.jitter(s.delays)), false)
  }

  /** The pass on seed `|s.trace|`, which is also the request slot of its
      fetch. */
  function SeedStep(env: Env, seeds: seq<string>, s: State): (s': State)
    requires |s.trace| < |seeds| && !s.aborted
    ensures |s'.trace| == |s.trace| + 1 && s'.trace[..|s.trace|] == s.trace
    ensures s'.trace[|s.trace|].url == seeds[|s.trace|]
  {
    Pass(env, seeds, s, FetchCapped(env.net, seeds[|s.trace|], |s.trace|))
  }

  /** A seed whose domain has reached the cap is skipped: no fetch, no row,
      no rotation, no delay. */
  lemma SkipWhenCapped(env: Env, seeds: seq<string>, s: State)
    requires |s.trace| < |seeds| && !s.aborted
    requires CountOf(s.counts, HostOr(env, seeds[|s.trace|])) >= MAX_PAGES_PER_DOMAIN
    ensures var s' := SeedStep(env, seeds, s);
      && s'.trace[|s.trace|].Skipped?
      && s'.table == s.table && s'.fetched == s.fetched && s'.delays == s.delays
      && s'.slept == s.slept && !s'.aborted
  {
  }

  /** A seed below the cap is fetched in its own request slot; a malformed
      Content-Length ends the run right there, and otherwise a delay of at
      least half a second follows whatever the fetch gave. */
  lemma TriedBelowCap(env: Env, seeds: seq<string>, s: State)
    requires |s.trace| < |seeds| && !s.aborted
    requires CountOf(s.counts, HostOr(env, seeds[|s.trace|])) < MAX_PAGES_PER_DOMAIN
    ensures var s' := SeedStep(env, seeds, s);
      var step := s'.trace[|s.trace|];
      && step.Tried? && step.result == FetchCapped(env.net, seeds[|s.trace|], |s.trace|)
      && (s'.aborted <==> step.result.value.LengthError?)
      && (s'.aborted ==> s'.table == s.table && s'.delays == s.delays && !step.stored && !step.rotated)
      && (!s'.aborted ==> s'.delays == s.delays + 1 && s'.slept >= s.slept + MIN_DELAY)
  {
  }

  /** So a failed fetch right after the fiftieth stored page rotates the
      identity a second time at the same count. */
  lemma RotationRefires(env: Env, seeds: seq<string>, s: State)
    requires |s.trace| < |seeds| && !s.aborted && s.fetched == RENEW_AFTER_REQUESTS
    requires CountOf(s.counts, HostOr(env, seeds[|s.trace|])) < MAX_PAGES_PER_DOMAIN
    requires FetchCapped(env.net, seeds[|s.trace|], |s.trace|).value == Returned(None)
    ensures var s' := SeedStep(env, seeds, s);
      s'.trace[|s.trace|].Tried? && s'.trace[|s.trace|].rotated && s'.fetched == RENEW_AFTER_REQUESTS
  {
  }

  /** Number of passes that offered a row to the table. */
  function StoredCount(trace: seq<Step>): nat {
    if trace == [] then 0
    else
      var last := trace[|trace| - 1];
      StoredCount(trace[..|trace| - 1]) + (if last.Tried? && last.stored then 1 else 0)
  }

  /** Number of passes that offered a row for a seed of domain `d`. */
  function StoredFor(trace: seq<Step>, d: string): nat {
    if trace == [] then 0
    else
      var last := trace[|trace| - 1];
      StoredFor(trace[..|trace| - 1], d) + (if last.Tried? && last.stored && last.domain == d then 1 else 0)
  }

  /** Number of passes followed by `random_delay()`: the tried ones that
      did not end the run. */
  function Delayed(trace: seq<Step>): nat {
    if trace == [] then 0
    else
      var last := trace[|trace| - 1];
      Delayed(trace[..|trace| - 1]) + (if last.Tried? && !last.result.value.LengthError? then 1 else 0)
  }

  /** The seconds the passes of a trace sleep, in order, the n-th delay
      drawing the n-th jitter. */
  function SleptFor(env: Env, trace: seq<Step>): real {
    if trace == [] then 0.0
    else
      var init := trace[..|trace| - 1];
      SleptFor(env, init) + PassSleep(env, Delayed(init), trace[|trace| - 1])
  }

  /** How the loop decides a pass, given the passes `before` it: the seed is
      skipped exactly when its domain already has `MAX_PAGES_PER_DOMAIN`
      stored pages; a tried seed offers a row exactly when a truthy response
      came back; and the identity rotates exactly when the pass completes
      with `fetched_count` at a positive multiple of fifty. */
  ghost predicate StepRule(before: seq<Step>, step: Step) {
    && (step.Skipped? <==> StoredFor(before, step.domain) >= MAX_PAGES_PER_DOMAIN)
    && (step.Tried? ==> (step.stored <==> Kept(step.result.value)))
    && (step.Tried? ==>
          var n := StoredCount(before) + (if step.stored then 1 else 0);
          (step.rotated <==> !step.result.value.LengthError? && n > 0 && n % RENEW_AFTER_REQUESTS == 0))
  }

  /** Every pass of the trace was decided by the loop's rule, the last one
      given all the passes before it. */
  ghost predicate RuleFollowed(trace: seq<Step>) {
    trace == [] || (RuleFollowed(trace[..|trace| - 1]) && StepRule(trace[..|trace| - 1], trace[|trace| - 1]))
  }

  /** So each pass `j` was decided by the rule given passes `0 .. j - 1`. */
  lemma {:induction false} RuleAtEachPass(trace: seq<Step>)
    requires RuleFollowed(trace)
    ensures forall j :: 0 <= j < |trace| ==> StepRule(trace[..j], trace[j])
  {
    if trace != [] {
      var init := trace[..|trace| - 1];
      RuleAtEachPass(init);
      forall j | 0 <= j < |trace|
        ensures StepRule(trace[..j], trace[j])
      {
        if j < |init| {
          assert trace[..j] == init[..j] && trace[j] == init[j];
        }
      }
    }
  }

  /** Every page offered to the table can be looked up by its URL. */
  ghost predicate RowsFound(s: State) {
    forall j :: 0 <= j < |s.trace| && s.trace[j].Tried? && s.trace[j].stored ==>
      Lookup(s.table, s.trace[j].url).Some?
  }

  /** The trace follows the seeds, each step's domain is its seed's
      hostname (or `""`) and has a counter, and a `ValueError` can only be
      the last step, ending the run. */
  ghost predicate TraceOk(env: Env, seeds: seq<string>, s: State) {
    && |s.trace| <= |seeds|
    && (forall j :: 0 <= j < |s.trace| ==>
          s.trace[j].url == seeds[j] && s.trace[j].domain == HostOr(env, seeds[j]) && s.trace[j].domain in s.counts)
    && (forall j :: 0 <= j < |s.trace| && s.trace[j].Tried? && s.trace[j].result.value.LengthError? ==>
          s.aborted && j == |s.trace| - 1)
    && (s.aborted ==> s.trace != [] && s.trace[|s.trace| - 1].Tried?
                      && s.trace[|s.trace| - 1].result.value.LengthError?)
  }

  /** The counters stay capped, each counts the passes that offered a row
      for its domain, and they sum to `fetched_count`, which counts all the
      passes that offered a row. */
  ghost predicate CountsOk(s: State) {
    && (forall d :: d in s.counts ==> s.counts[d] <= MAX_PAGES_PER_DOMAIN)
    && (forall d :: CountOf(s.counts, d) == StoredFor(s.trace, d))
    && s.fetched == Total(s.counts) == StoredCount(s.trace)
  }

  /** The table extends `prior`, keeps its URLs unique, and gains at most
      one row, for a seed, per counted page. */
  ghost predicate TableOk(seeds: seq<string>, prior: seq<Row>, s: State) {
    && prior <= s.table && UniqueUrls(s.table) && |s.table| <= |prior| + s.fetched
    && (forall k :: |prior| <= k < |s.table| ==> s.table[k].url in seeds)
  }

  /** What holds after every pass of the seed loop. */
  ghost predicate Invariant(env: Env, seeds: seq<string>, prior: seq<Row>, s: State) {
    && TraceOk(env, seeds, s)
    && CountsOk(s)
    && TableOk(seeds, prior, s)
    && RuleFollowed(s.trace)
    && RowsFound(s)
    && s.delays == Delayed(s.trace) && s.slept == SleptFor(env, s.trace)
    && s.slept >= MIN_DELAY * s.delays as real
  }

  /** The counters after `setdefault` and an optional increment below the
      cap stay capped and keep summing to `fetched_count`. */
  lemma CountersKept(m: map<string, nat>, d: string, stored: bool, fetched: nat)
    requires forall e :: e in m ==> m[e] <= MAX_PAGES_PER_DOMAIN
    requires fetched == Total(m)
    requires stored ==> CountOf(m, d) < MAX_PAGES_PER_DOMAIN
    ensures var m1 := m[d := CountOf(m, d)];
      var m2 := if stored then m1[d := m1[d] + 1] else m1;
      && (forall e :: e in m2 ==> m2[e] <= MAX_PAGES_PER_DOMAIN)
      && d in m2
      && Total(m2) == fetched + (if stored then 1 else 0)
  {
    var m1 := m[d := CountOf(m, d)];
    TotalSet(m, d, CountOf(m, d));
    if stored {
      TotalSet(m1, d, m1[d] + 1);
    }
  }

  /** Appending one step to the trace adds its stored page, if any. */
  lemma StoredAppend(trace: seq<Step>, step: Step)
    ensures StoredCount(trace + [step]) == StoredCount(trace) + (if step.Tried? && step.stored then 1 else 0)
  {
    assert (trace + [step])[..|trace|] == trace;
  }

  /** Appending one step to the trace adds its stored page to its own
      domain only. */
  lemma StoredForAppend(trace: seq<Step>, step: Step, d: string)
    ensures StoredFor(trace + [step], d) == StoredFor(trace, d) + (if step.Tried? && step.stored && step.domain == d then 1 else 0)
  {
    assert (trace + [step])[..|trace|] == trace;
  }

  /** A pass extends the trace and never drops a counter. */
  lemma TraceStep(env: Env, seeds: seq<string>, s: State, f: Fetched<Capped>)
    requires |s.trace| < |seeds| && !s.aborted
    requires TraceOk(env, seeds, s)
    ensures TraceOk(env, seeds, Pass(env, seeds, s, f))
  {
    var s' := Pass(env, seeds, s, f);
    var n := |s.trace|;
    assert s.counts.Keys <= s'.counts.Keys;
    forall j | 0 <= j < |s'.trace|
      ensures s'.trace[j].url == seeds[j] && s'.trace[j].domain == HostOr(env, seeds[j]) && s'.trace[j].domain in s'.counts
      ensures s'.trace[j].Tried? && s'.trace[j].result.value.LengthError? ==> s'.aborted && j == n
    {
      if j < n {
        assert s'.trace[j] == s.trace[j];
      }
    }
  }

  /** What a pass does to the trace, the counters and `fetched_count`: a
      page is counted, below the cap, exactly when the new step offered a
      row. */
  lemma PassShape(env: Env, seeds: seq<string>, s: State, f: Fetched<Capped>)
    requires |s.trace| < |seeds| && !s.aborted
    ensures var s' := Pass(env, seeds, s, f);
      var d := HostOr(env, seeds[|s.trace|]);
      var step := s'.trace[|s.trace|];
      var stored := step.Tried? && step.stored;
      var m1 := s.counts[d := CountOf(s.counts, d)];
      && s'.trace == s.trace + [step]
      && (step.Tried? ==> step.result == f)
      && (stored ==> CountOf(s.counts, d) < MAX_PAGES_PER_DOMAIN)
      && s'.counts == (if stored then m1[d := m1[d] + 1] else m1)
      && s'.fetched == s.fetched + (if stored then 1 else 0)
  {
    var s' := Pass(env, seeds, s, f);
    assert s'.trace == s.trace + [s'.trace[|s.trace|]];
  }

  /** Counting a page of domain `d` below the cap keeps the counters capped
      and summing to the number of stored passes. */
  lemma CountsStep(s: State, s': State, d: string, step: Step)
    requires CountsOk(s)
    requires s'.trace == s.trace + [step] && step.domain == d
    requires step.Tried? && step.stored ==> CountOf(s.counts, d) < MAX_PAGES_PER_DOMAIN
    requires var m1 := s.counts[d := CountOf(s.counts, d)];
      s'.counts == if step.Tried? && step.stored then m1[d := m1[d] + 1] else m1
    requires s'.fetched == s.fetched + (if step.Tried? && step.stored then 1 else 0)
    ensures CountsOk(s')
  {
    StoredAppend(s.trace, step);
    CountersKept(s.counts, d, step.Tried? && step.stored, s.fetched);
    forall e
      ensures CountOf(s'.counts, e) == StoredFor(s'.trace, e)
    {
      StoredForAppend(s.trace, step, e);
    }
  }

  /** A pass is decided by the loop's rule, given that the counters count
      the stored passes of their domains. */
  lemma RuleStep(env: Env, seeds: seq<string>, s: State, f: Fetched<Capped>)
    requires |s.trace| < |seeds| && !s.aborted
    requires forall d :: CountOf(s.counts, d) == StoredFor(s.trace, d)
    requires s.fetched == StoredCount(s.trace)
    requires RuleFollowed(s.trace)
    ensures RuleFollowed(Pass(env, seeds, s, f).trace)
  {
    var s' := Pass(env, seeds, s, f);
    var step := s'.trace[|s.trace|];
    assert s'.trace == s.trace + [step];
    assert StepRule(s.trace, step);
  }

  /** A pass that offers a row makes its URL found, and a row once found
      stays found. */
  lemma FoundStep(env: Env, seeds: seq<string>, s: State, f: Fetched<Capped>)
    requires |s.trace| < |seeds| && !s.aborted
    requires RowsFound(s)
    ensures RowsFound(Pass(env, seeds, s, f))
  {
    var s' := Pass(env, seeds, s, f);
    var i := |s.trace|;
    var step := s'.trace[i];
    assert s'.trace == s.trace + [step];
    if step.Tried? && step.stored {
      var row := ParseAndStore(env, seeds[i], step.result.value.resp.value);
      assert s'.table == SavePage(s.table, row);
      forall j | 0 <= j < i && s.trace[j].Tried? && s.trace[j].stored
        ensures Lookup(s'.table, s.trace[j].url).Some?
      {
        SaveThenLookup(s.table, row, s.trace[j].url);
      }
    } else {
      assert s'.table == s.table;
    }
  }

  /** A pass saves at most the row of its own seed, and only when it counts
      a page. */
  lemma TableStep(env: Env, seeds: seq<string>, prior: seq<Row>, s: State, f: Fetched<Capped>)
    requires |s.trace| < |seeds| && !s.aborted
    requires TableOk(seeds, prior, s)
    ensures TableOk(seeds, prior, Pass(env, seeds, s, f))
  {
    var s' := Pass(env, seeds, s, f);
    var i := |s.trace|;
    var step := s'.trace[i];
    if step.Tried? && step.stored {
      var row := ParseAndStore(env, seeds[i], step.result.value.resp.value);
      assert s'.table == SavePage(s.table, row);
      forall k | |prior| <= k < |s'.table|
        ensures s'.table[k].url in seeds
      {
        if k >= |s.table| {
          assert s'.table[k] == row;
        } else {
          assert s'.table[k] == s.table[k];
        }
      }
    }
  }

  /** Every delay sleeps at least half a second. */
  lemma SleepStep(env: Env, seeds: seq<string>, s: State, f: Fetched<Capped>)
    requires |s.trace| < |seeds| && !s.aborted
    requires s.slept >= MIN_DELAY * s.delays as real
    ensures var s' := Pass(env, seeds, s, f);
      s'.slept >= MIN_DELAY * s'.delays as real
  {
  }

  /** A pass adds its own delay and seconds slept to the trace's. */
  lemma ClockStep(env: Env, seeds: seq<string>, s: State, f: Fetched<Capped>)
    requires |s.trace| < |seeds| && !s.aborted
    requires s.delays == Delayed(s.trace) && s.slept == SleptFor(env, s.trace)
    ensures var s' := Pass(env, seeds, s, f);
      s'.delays == Delayed(s'.trace) && s'.slept == SleptFor(env, s'.trace)
  {
    var s' := Pass(env, seeds, s, f);
    assert s'.trace[..|s'.trace| - 1] == s.trace;
  }

  /** One pass of the seed loop keeps the invariant. */
  lemma StepKeeps(env: Env, seeds: seq<string>, prior: seq<Row>, s: State, f: Fetched<Capped>)
    requires |s.trace| < |seeds| && !s.aborted
    requires Invariant(env, seeds, prior, s)
    ensures Invariant(env, seeds, prior, Pass(env, seeds, s, f))
  {
    TraceStep(env, seeds, s, f);
    PassShape(env, seeds, s, f);
    var s' := Pass(env, seeds, s, f);
    CountsStep(s, s', HostOr(env, seeds[|s.trace|]), s'.trace[|s.trace|]);
    TableStep(env, seeds, prior, s, f);
    RuleStep(env, seeds, s, f);
    FoundStep(env, seeds, s, f);
    ClockStep(env, seeds, s, f);
    SleepStep(env, seeds, s, f);
  }

  /** Every tried seed holds what `fetch_url` returns for it in its own
      request slot. */
  ghost predicate FetchesFaithful(env: Env, seeds: seq<string>, trace: seq<Step>) {
    && |trace| <= |seeds|
    && forall j :: 0 <= j < |trace| && trace[j].Tried? ==> trace[j].result == FetchCapped(env.net, seeds[j], j)
  }

  /** A step that records the fetch of its own seed keeps the trace
      faithful. */
  lemma FaithfulKept(env: Env, seeds: seq<string>, trace: seq<Step>, step: Step)
    requires |trace| < |seeds| && FetchesFaithful(env, seeds, trace)
    requires step.Tried? ==> step.result == FetchCapped(env.net, seeds[|trace|], |trace|)
    ensures FetchesFaithful(env, seeds, trace + [step])
  {
    assert forall j :: 0 <= j < |trace| ==> (trace + [step])[j] == trace[j];
  }

  /** One pass of the seed loop, on the fetch of its own seed, keeps the
      invariant and the faithfulness of the recorded fetches. */
  lemma LoopStep(env: Env, seeds: seq<string>, prior: seq<Row>, s: State)
    requires |s.trace| < |seeds| && !s.aborted
    requires Invariant(env, seeds, prior, s) && FetchesFaithful(env, seeds, s.trace)
    ensures Invariant(env, seeds, prior, SeedStep(env, seeds, s))
    ensures FetchesFaithful(env, seeds, SeedStep(env, seeds, s).trace)
  {
    var f := FetchCapped(env.net, seeds[|s.trace|], |s.trace|);
    StepKeeps(env, seeds, prior, s, f);
    PassShape(env, seeds, s, f);
    FaithfulKept(env, seeds, s.trace, SeedStep(env, seeds, s).trace[|s.trace|]);
  }

  /** One pass of the seed loop on the fetch of its own seed. */
  method Advance(env: Env, seeds: seq<string>, prior: seq<Row>, s: State) returns (s': State)
    requires |s.trace| < |seeds| && !s.aborted
    requires Invariant(env, seeds, prior, s) && FetchesFaithful(env, seeds, s.trace)
    ensures |s'.trace| == |s.trace| + 1
    ensures Invariant(env, seeds, prior, s') && FetchesFaithful(env, seeds, s'.trace)
  {
    LoopStep(env, seeds, prior, s);
    s' := SeedStep(env, seeds, s);
  }

  /** What the invariant says, spelled out. */
  lemma InvariantMeans(env: Env, seeds: seq<string>, prior: seq<Row>, s: State)
    requires Invariant(env, seeds, prior, s)
    ensures |s.trace| <= |seeds|
    ensures forall j :: 0 <= j < |s.trace| ==>
      s.trace[j].url == seeds[j] && s.trace[j].domain == HostOr(env, seeds[j]) && s.trace[j].domain in s.counts
    ensures forall j :: 0 <= j < |s.trace| && s.trace[j].Tried? && s.trace[j].result.value.LengthError? ==>
      s.aborted && j == |s.trace| - 1
    ensures forall d :: d in s.counts ==> s.counts[d] <= MAX_PAGES_PER_DOMAIN
    ensures s.fetched == Total(s.counts) == StoredCount(s.trace)
    ensures prior <= s.table && UniqueUrls(s.table) && |s.table| <= |prior| + s.fetched
    ensures forall k :: |prior| <= k < |s.table| ==> s.table[k].url in seeds
    ensures s.delays == Delayed(s.trace) && s.slept == SleptFor(env, s.trace)
    ensures s.slept >= MIN_DELAY * s.delays as real
    ensures forall d :: CountOf(s.counts, d) == StoredFor(s.trace, d)
    ensures RuleFollowed(s.trace)
    ensures forall j :: 0 <= j < |s.trace| && s.trace[j].Tried? && s.trace[j].stored ==>
      Lookup(s.table, s.trace[j].url).Some?
  {
  }

  /** The `for url in seed_urls` loop, from an empty `domain_counts` and a
      zero `fetched_count`: it runs until the seeds are exhausted or a
      `ValueError` ends it, keeping the invariant. */
  method SeedLoop(env: Env, seeds: seq<string>, prior: seq<Row>) returns (s: State)
    requires UniqueUrls(prior)
    ensures |s.trace| == |seeds| || s.aborted
    ensures Invariant(env, seeds, prior, s) && FetchesFaithful(env, seeds, s.trace)
  {
    s := State(prior, map[], 0, [], 0, 0.0, false);
    while |s.trace| < |seeds| && !s.aborted
      invariant Invariant(env, seeds, prior, s)
      invariant FetchesFaithful(env, seeds, s.trace)
      decreases |seeds| - |s.trace|
    {
      s := Advance(env, seeds, prior, s);
    }
  }

  /** `crawl(seed_urls)` of crawler/crawler1.py over a `pages` table that
      already holds `prior` (the database file persists between runs). Each
      seed is counted under its hostname (or `""`) and fetched at most once,
      in its own request slot, unless that domain already has
      `MAX_PAGES_PER_DOMAIN` stored pages; a tried seed
      offers a row exactly when its response is truthy, and that URL can then
      be looked up; the identity rotates on the fifty-page cadence;
      `fetched_count` is the sum of the counters, each of which counts its
      domain's stored pages; the table only grows and keeps its URLs unique;
      a malformed Content-Length ends the run at that seed; every other
      tried seed is followed by one delay, and the seconds slept are exactly
      those of the passes. */
  method Crawl(seeds: seq<string>, prior: seq<Row>, env: Env) returns (s: State)
    requires UniqueUrls(prior)
    ensures |s.trace| == |seeds| || (s.aborted && s.trace != [] && s.trace[|s.trace| - 1].Tried?
                                     && s.trace[|s.trace| - 1].result.value.LengthError?)
    ensures |s.trace| <= |seeds|
    ensures forall j :: 0 <= j < |s.trace| ==>
      s.trace[j].url == seeds[j] && s.trace[j].domain == HostOr(env, seeds[j]) && s.trace[j].domain in s.counts
    ensures forall j :: 0 <= j < |s.trace| && s.trace[j].Tried? && s.trace[j].result.value.LengthError? ==>
      s.aborted && j == |s.trace| - 1
    ensures forall j :: 0 <= j < |s.trace| && s.trace[j].Tried? ==> s.trace[j].result == FetchCapped(env.net, seeds[j], j)
    ensures forall d :: d in s.counts ==> s.counts[d] <= MAX_PAGES_PER_DOMAIN
    ensures s.fetched == Total(s.counts) == StoredCount(s.trace)
    ensures prior <= s.table && UniqueUrls(s.table) && |s.table| <= |prior| + s.fetched
    ensures forall k :: |prior| <= k < |s.table| ==> s.table[k].url in seeds
    ensures s.delays == Delayed(s.trace) && s.slept == SleptFor(env, s.trace)
    ensures s.slept >= MIN_DELAY * s.delays as real
    ensures forall d :: CountOf(s.counts, d) == StoredFor(s.trace, d)
    ensures forall j :: 0 <= j < |s.trace| ==> StepRule(s.trace[..j], s.trace[j])
    ensures forall j :: 0 <= j < |s.trace| && s.trace[j].Tried? && s.trace[j].stored ==>
      Lookup(s.table, s.trace[j].url).Some?
  {
    s := SeedLoop(env, seeds, prior);
    InvariantMeans(env, seeds, prior, s);
    RuleAtEachPass(s.trace);
  }
}

=== FILE: services.dfy ===
/** The collaborators every crawler variant runs against: the network,
    BeautifulSoup, `urlparse(..).hostname`, `urljoin` and the jitter that
    `random.uniform(-3, 3)` draws for the n-th delay of a run. */
module Services {
  import opened Optional
  import opened Transport
  import opened Html
  import opened PageExtract

  datatype Env = Env(net: Network, soup: Soup, hostname: string -> Option<string>, join: Join, jitter: nat -> real)

  /** `urlparse(url).hostname or ""`. */
  function HostOr(env: Env, url: string): string {
    env.hostname(url).GetOr("")
  }
}

=== FILE: transport.dfy ===
/** The part of `requests` the crawlers see: one `session.get` either raises a
    `RequestException` or yields a response. A run's network is a function
    from (url, request slot, attempt number) to that outcome, so every model
    below is deterministic given the network it is handed. */
module Transport {
  import opened Optional
  import opened PyStr

  /** `MAX_RETRIES` in every crawler variant. */
  const MAX_RETRIES: nat := 3

  /** The `Content-Length` header as `int(cl)` sees it: missing or empty
      (falsy), a number, or text that `int()` rejects with `ValueError`. */
  datatype Length = Absent | Declared(n: int) | Unparsable

  /** A response: status code, `Content-Type` header (`""` when missing, as
      `headers.get("Content-Type", "")` yields), `Content-Length` header and
      body text (one character per byte; decoding is not modelled). */
  datatype Response = Response(status: int, contentType: string, contentLength: Length, body: string)

  /** The outcome of one `session.get`. */
  datatype Attempt = Raise | Reply(resp: Response)

  /** `net(url, slot, a)` is what attempt `a` (1-based) of the fetch that a
      run performs in request slot `slot` yields for `url`. */
  type Network = (string, nat, nat) -> Attempt

  /** What a fetch returns, with the number of the last attempt it made and
      the seconds it slept in back-off. */
  datatype Fetched<+T> = Fetched(value: T, attempts: nat, slept: nat)

  function Pow2(n: nat): (p: nat)
    ensures p >= 1
  {
    if n == 0 then 1 else 2 * Pow2(n - 1)
  }

  /** `resp.status_code == 200 and "text" in resp.headers.get("Content-Type", "")`. */
  predicate IsTextOk(r: Response) {
    r.status == 200 && Contains(r.contentType, "text")
  }

  /** `bool(resp)`: a `requests.Response` is truthy exactly when `resp.ok`,
      that is when `raise_for_status()` would not raise, which it does for a
      client error (400 to 499) or a server error (500 to 599) only. */
  predicate Truthy(r: Response) {
    !(400 <= r.status < 600)
  }

  /** The back-off the retry loops sleep: `2 ** a` seconds after attempt `a`
      raised, summed over the attempts `lo .. hi - 1`. */
  function RaisedBackoff(net: Network, url: string, slot: nat, lo: nat, hi: nat): nat
    decreases hi - lo
  {
    if lo >= hi then 0
    else (if net(url, slot, lo).Raise? then Pow2(lo) else 0) + RaisedBackoff(net, url, slot, lo + 1, hi)
  }

  /** Attempts `lo .. hi - 1` all raised. */
  predicate AllRaised(net: Network, url: string, slot: nat, lo: nat, hi: nat) {
    forall a :: lo <= a < hi ==> net(url, slot, a).Raise?
  }

  /** When every attempt in a range raised, the back-off is geometric:
      `2^lo + ... + 2^(hi-1) == 2^hi - 2^lo`. */
  lemma {:induction false} GeometricBackoff(net: Network, url: string, slot: nat, lo: nat, hi: nat)
    requires lo <= hi
    requires AllRaised(net, url, slot, lo, hi)
    ensures RaisedBackoff(net, url, slot, lo, hi) == Pow2(hi) - Pow2(lo)
    decreases hi - lo
  {
    if lo < hi {
      GeometricBackoff(net, url, slot, lo + 1, hi);
      PowMonotone(lo + 1, hi);
    }
  }

  lemma {:induction false} PowMonotone(a: nat, b: nat)
    requires a <= b
    ensures Pow2(a) <= Pow2(b)
    decreases b - a
  {
    if a < b {
      PowMonotone(a, b - 1);
    }
  }

  /** No back-off at all when no attempt in the range raised. */
  lemma {:induction false} NoRaiseNoBackoff(net: Network, url: string, slot: nat, lo: nat, hi: nat)
    requires forall a :: lo <= a < hi ==> net(url, slot, a).Reply?
    ensures RaisedBackoff(net, url, slot, lo, hi) == 0
    decreases hi - lo
  {
    if lo < hi {
      NoRaiseNoBackoff(net, url, slot, lo + 1, hi);
    }
  }

  /** The retry loop shared by crawler1.py and crawler2.py from attempt `a`
      on: return the first response that does not raise, sleeping `2 ** a`
      after every attempt that does. */
  function FirstReplyFrom(net: Network, url: string, slot: nat, a: nat): (r: Fetched<Option<Response>>)
    requires 1 <= a <= MAX_RETRIES + 1
    ensures a <= MAX_RETRIES ==> a <= r.attempts <= MAX_RETRIES
    ensures a > MAX_RETRIES ==> r.attempts == MAX_RETRIES && r.value.None?
    ensures AllRaised(net, url, slot, a, r.attempts)
    ensures r.value.Some? ==> net(url, slot, r.attempts) == Reply(r.value.value)
    ensures r.value.None? <==> AllRaised(net, url, slot, a, MAX_RETRIES + 1)
    ensures r.value.None? ==> r.attempts == MAX_RETRIES
    ensures r.slept == RaisedBackoff(net, url, slot, a, r.attempts + 1)
    decreases MAX_RETRIES + 1 - a
  {
    if a > MAX_RETRIES then Fetched(None, MAX_RETRIES, 0)
    else match net(url, slot, a)
      case Reply(resp) => Fetched(Some(resp), a, 0)
      case Raise =>
        var rest := FirstReplyFrom(net, url, slot, a + 1);
        Fetched(rest.value, rest.attempts, Pow2(a) + rest.slept)
  }

  /** The whole retry loop: at most `MAX_RETRIES` attempts, the first reply
      wins whatever its status, and `None` only when every attempt raised. */
  function FirstReply(net: Network, url: string, slot: nat): (r: Fetched<Option<Response>>)
    ensures 1 <= r.attempts <= MAX_RETRIES
    ensures AllRaised(net, url, slot, 1, r.attempts)
    ensures r.value.Some? ==> net(url, slot, r.attempts) == Reply(r.value.value)
    ensures r.value.None? <==> AllRaised(net, url, slot, 1, MAX_RETRIES + 1)
    ensures r.value.None? ==> r.attempts == MAX_RETRIES
    ensures r.slept == RaisedBackoff(net, url, slot, 1, r.attempts + 1)
  {
    FirstReplyFrom(net, url, slot, 1)
  }

  /** The back-off of the first-reply loop in closed form: `2^k - 2` seconds
      when attempt `k` answered, `2 + 4 + 8 == 14` seconds when all three
      raised. */
  lemma FirstReplyBackoff(net: Network, url: string, slot: nat)
    ensures var r := FirstReply(net, url, slot);
      r.slept == if r.value.Some? then Pow2(r.attempts) - 2 else 14
  {
    var r := FirstReply(net, url, slot);
    if r.value.Some? {
      NoRaiseNoBackoff(net, url, slot, r.attempts, r.attempts + 1);
      GeometricBackoff(net, url, slot, 1, r.attempts);
      SplitBackoff(net, url, slot, 1, r.attempts, r.attempts + 1);
    } else {
      GeometricBackoff(net, url, slot, 1, MAX_RETRIES + 1);
    }
  }

  lemma {:induction false} SplitBackoff(net: Network, url: string, slot: nat, lo: nat, mid: nat, hi: nat)
    requires lo <= mid <= hi
    ensures RaisedBackoff(net, url, slot, lo, hi)
         == RaisedBackoff(net, url, slot, lo, mid) + RaisedBackoff(net, url, slot, mid, hi)
    decreases mid - lo
  {
    if lo < mid {
      SplitBackoff(net, url, slot, lo + 1, mid, hi);
    }
  }
}
